=== FILE: README.md ===
# Quote-maintenance engine of the MMU market-making bot, in Dafny

The bot (`mmu_bot.mjs`) keeps a two-sided ladder of resting limit orders
around the mark price of one perpetual contract. Each cycle it reads the
mark, every `ORDER_CHECK_MS` reconciles the orders it owns (cl_ord_id
prefix `MMU-`) against the expected `LADDER_LEVELS` per side, decides
whether the last quote may stay (HOLD, inside a hysteresis band) or must
be replaced (REFRESH), and on refresh cancels its orders, places the bids
then the asks from the outermost level inward, and commits the level-0
prices as the new quote.

The model covers:

- `TickRounding` (`rounding.dfy`): `roundByDecimals`, exact on `real`.
- `Settings` (`settings.dfy`): the configuration derived from the environment.
- `QuantitySelector` (`quantity.dfy`): start-up normalisation of QTY / QTY_MIN / QTY_MAX and `pickQtyEach`, with the random draw as a parameter.
- `LadderPricer` (`ladder.dfy`): level offsets in basis-point and USD mode, the ladder prices, and the imperative ladder build over two arrays (push loop, then the crossed-level fix-up loop).
- `BandDecision` (`band.dfy`): the distance helpers and the HOLD / REFRESH decision with the labels the bot logs.
- `OrderBook` (`orders.dfy`): `normalizeSide`, the ownership filter, side counts, the ids to cancel and the reconciler's three outcomes.
- `Lifecycle` (`lifecycle.dfy`): cl_ord_ids and one side's placement loop (count down, push, break on a non-zero code), as a loop method proved against a recursive specification.
- `QuoteEngine` (`engine.dfy`): the whole cycle as a function `Step` of the state and the cycle's inputs, and the class `Engine` holding the four loop variables, whose method `RunCycle` is proved equal to `Step`.
- `CycleProperties` (`cycle_props.dfy`) and `FreshQuote` (`fresh_quote.dfy`): what one cycle and two cycles in a row guarantee.

Everything the cycle receives from outside is an input of `Step`: the mark
(absent when the price query throws), the clock readings, the two
open-order query results (absent when they throw), whether the refresh
cancel succeeded, the jitter draw, and the replies to the `newOrder` calls
in call order (`Threw` for an exception). A `return` in `RunCycle` stands
for the source's `continue`, its `catch` or `process.exit(2)`, which the
report calls `Stopped`.

The model follows the code of `mmu_bot.mjs` in these places where the
bot's documentation describes something else:

- Rounding down is `Math.floor` (toward minus infinity), not toward zero; they differ only for negative values.
- The USD-mode level step is the literal 100 (`mmu_bot.mjs:420`); there is no step setting.
- The quote is committed after both placement loops whatever codes the exchange returned (`mmu_bot.mjs:500-502`), not only when the innermost levels succeeded.
- An exception during placement ends the cycle in the `catch` without touching the quote; the old quote (or none, if reconciliation cleared it) is kept, rather than being forced to "no quote".

## Model

| member | source | states |
|---|---|---|
| TickRounding.RoundByDecimals | mmu_bot.mjs:79-84 | the result lies on the 10^-d grid; rounding down gives r ≤ x < r + 10^-d, rounding up gives r − 10^-d < x ≤ r |
| TickRounding.Ceil | mmu_bot.mjs:82 | `Math.ceil`: the least integer k with v ≤ k, so k − 1 < v ≤ k |
| TickRounding.RoundDownGreatest | mmu_bot.mjs:79-84 | rounding down yields the greatest grid point not above x |
| TickRounding.RoundUpLeast | mmu_bot.mjs:79-84 | rounding up yields the least grid point not below x |
| TickRounding.RoundMonotone | mmu_bot.mjs:79-84 | rounding in either direction preserves the order of its inputs |
| TickRounding.RoundOnGrid | mmu_bot.mjs:79-84 | a value already on the grid is unchanged by rounding in either direction |
| TickRounding.GridPointsApart | mmu_bot.mjs:79-84 | two grid points less than one tick apart are equal |
| Settings.FromEnv | mmu_bot.mjs:17-42 | every variable that is set is taken as it is (LADDER_LEVELS raised to at least 1); every unset one takes the literal default: TARGET_BPS falls back to OFFSET_BPS (default 9), MAX_BPS 9.2, MIN_BPS 4.5, MIN_REFRESH_MS 20000, LADDER_LEVELS 1, LADDER_STEP_BPS 0.25, ABS_SPREAD_USD 0, ORDER_CHECK_MS 15000, QTY_JITTER_PCT 0, ABS_MIN_USD max(0.3·spread, 50) and ABS_MAX_USD max(1.5·spread, spread + 50) in USD mode and 0 otherwise; STOP_ON_FILL is on iff unset or "1" |
| Settings.DefaultConfig | mmu_bot.mjs:17-42 | with nothing set: BPS mode, one level, target 9 bps, band [4.5, 9.2], step 0.25, 20 s debounce, 15 s check, stop on fill |
| QuantitySelector.Floored | mmu_bot.mjs:264-271 | a bound raised to min_order_qty and rounded down is on the grid, at least min_order_qty rounded down, at most max(bound, min_order_qty) |
| QuantitySelector.FlooredGreatest | mmu_bot.mjs:264-271 | every grid point at or below max(bound, min_order_qty) is at or below the floored bound, so with `Floored` it is the greatest such grid point |
| QuantitySelector.NormaliseQty | mmu_bot.mjs:264-276 | the base is the floored QTY; each set bound stays set and the unset ones unset; a lone bound is its floored want; with both bounds set, QTY_MIN ≤ QTY_MAX and the pair is the two floored wants in some order (the swap) |
| QuantitySelector.Clamped | mmu_bot.mjs:87-95 | with j the jittered base (the base itself when the jitter is off): j when it lies within the set bounds, QTY_MIN when j is below it (and QTY_MIN ≤ QTY_MAX or no QTY_MAX), QTY_MAX when j is above it, QTY_MAX when the bounds are crossed; never above a set QTY_MAX |
| QuantitySelector.PickQty | mmu_bot.mjs:86-105 | the result is min_order_qty itself or a positive grid value no larger than max(clamped quantity, min_order_qty) |
| QuantitySelector.PickQtyGreatest | mmu_bot.mjs:97-104 | whenever a positive grid point lies at or below max(clamped quantity, min_order_qty), there is no fallback and the quantity is that value rounded down, hence the greatest such grid point |
| QuantitySelector.PickQtyPlainBase | mmu_bot.mjs:86-105 | without jitter or bounds, a positive base quantity on the grid and at least min_order_qty is used unchanged |
| QuantitySelector.PickQtyAtLeastMin | mmu_bot.mjs:86-105 | with min_order_qty > 0 on the grid, the quantity is ≥ min_order_qty and on the grid, for every jitter draw and any bounds |
| QuantitySelector.PickQtyWithinBounds | mmu_bot.mjs:86-105 | after normalisation with both bounds set (and min_order_qty > 0 on the grid), the quantity lies in [QTY_MIN, QTY_MAX] on the grid for every jitter draw |
| LadderPricer.OffsetBps | mmu_bot.mjs:427 | the basis-point offset lies in [0.01, max(0.01, MAX_BPS)] and equals TARGET_BPS + i·LADDER_STEP_BPS whenever that is inside [0.01, MAX_BPS] |
| LadderPricer.OffsetUsd | mmu_bot.mjs:420 | the USD offset is at least 1 and equals ABS_SPREAD_USD + 100·i whenever that is at least 1 |
| LadderPricer.Offset | mmu_bot.mjs:418-429 | for a positive mark every level's offset is positive |
| LadderPricer.LevelAsk | mmu_bot.mjs:437-441 | after the fix-up the ask is strictly above the bid of its level and not below the rounded-up ask |
| LadderPricer.LadderBids | mmu_bot.mjs:416-432 | LADDER_LEVELS bids, all on the price grid |
| LadderPricer.LadderAsks | mmu_bot.mjs:416-441 | LADDER_LEVELS asks, each strictly above the bid of its level |
| LadderPricer.BumpNeverFires | mmu_bot.mjs:436-441 | for a positive mark the bid is below the mark, the ask above it, and the fix-up leaves the ask unchanged |
| LadderPricer.BpsOffsetsWiden | mmu_bot.mjs:427 | with LADDER_STEP_BPS ≥ 0, BPS offsets never shrink outward and stay in [0.01, max(0.01, MAX_BPS)] |
| LadderPricer.UsdOffsetsWiden | mmu_bot.mjs:420 | USD offsets are at least 1 and never shrink outward |
| LadderPricer.OffsetsWiden | mmu_bot.mjs:418-429 | in either mode (BPS with a non-negative step) an outer level's offset is at least an inner one's |
| LadderPricer.LadderWidens | mmu_bot.mjs:416-432 | bids are non-increasing and asks non-decreasing from level 0 outward |
| LadderPricer.FillLadder | mmu_bot.mjs:416-432 | the push loop gives two new, distinct arrays of LADDER_LEVELS entries holding, level by level, the mark minus the offset rounded down and the mark plus the offset rounded up |
| LadderPricer.FixCrossed | mmu_bot.mjs:435-440 | the fix-up loop leaves every ask that exceeds its bid alone and moves any other to one tick above its bid |
| LadderPricer.BuildLadder | mmu_bot.mjs:412-441 | the two arrays built by the push loop and patched by the fix-up loop hold exactly the ladder bids and asks |
| LadderPricer.UsdLadderExample | mmu_bot.mjs:418-424 | spread 1000 at mark 65000 with two levels gives bids [64000, 63900] and asks [66000, 66100] |
| LadderPricer.BpsLadderExample | mmu_bot.mjs:425-432 | 9 bps at mark 65000 gives level 0 at 64941.5 / 65058.5 whenever the price grid has at least one decimal |
| BandDecision.BidBpsFromMark | mmu_bot.mjs:113-116 | for a positive mark, non-negative exactly when the bid is at or below the mark; the bid is recovered as mark − bps/10000·mark |
| BandDecision.AskBpsFromMark | mmu_bot.mjs:118-121 | for a positive mark, non-negative exactly when the ask is at or above the mark; the ask is recovered as mark + bps/10000·mark |
| BandDecision.BidUsdFromMark | mmu_bot.mjs:123-125 | non-negative exactly when the bid is at or below the mark; the bid is mark minus the distance |
| BandDecision.AskUsdFromMark | mmu_bot.mjs:127-129 | non-negative exactly when the ask is at or above the mark; the ask is mark plus the distance |
| BandDecision.BpsDiff | mmu_bot.mjs:107-111 | non-negative for a positive midpoint; zero exactly when the prices are equal (midpoint non-zero) |
| BandDecision.BpsDiffSymmetric | mmu_bot.mjs:107-111 | the difference does not depend on argument order |
| BandDecision.Decide | mmu_bot.mjs:336-409 | without a quote: REFRESH(out-of-band); band HOLD iff the quote is in [min, max] on both sides; too close ⇒ REFRESH(too-close / too-close-usd) whatever the elapsed time; any HOLD has a quote that is not too close; a debounce HOLD needs elapsed < MIN_REFRESH_MS; the USD labels appear iff USD mode with a quote |
| BandDecision.BandHoldIgnoresElapsed | mmu_bot.mjs:343-391 | a band HOLD stays the same HOLD for any elapsed time |
| BandDecision.DebounceExpires | mmu_bot.mjs:336-409 | once MIN_REFRESH_MS has passed, the engine holds iff the quote is in the band |
| BandDecision.UsdDebounceUnreachable | mmu_bot.mjs:343-370 | with ABS_MAX_USD ≠ 0, HOLD(min-interval-usd) never happens |
| BandDecision.BpsDebounceUnreachable | mmu_bot.mjs:379-406 | with MAX_BPS ≥ 10, HOLD(min-interval) never happens (literal 10 bps ceiling) |
| BandDecision.BpsDebounceHold | mmu_bot.mjs:379-406 | in BPS mode with a quote: HOLD(min-interval) iff the quote is not too close, not in the band, elapsed < MIN_REFRESH_MS, and both sides are under the literal 10 bps |
| BandDecision.UsdDebounceHold | mmu_bot.mjs:343-370 | in USD mode with a quote: HOLD(min-interval-usd) iff the quote is not too close, not in the band, elapsed < MIN_REFRESH_MS, and both sides are under ABS_MAX_USD (no ceiling when it is 0) |
| BandDecision.TooCloseLabel | mmu_bot.mjs:336-409 | the decision is REFRESH(too-close) or REFRESH(too-close-usd) iff there is a quote and one of its sides is closer than the minimum distance |
| BandDecision.UsdDebounceWithoutCeiling | mmu_bot.mjs:360-372 | with ABS_MAX_USD = 0 the debounce holds a wide quote within MIN_REFRESH_MS and REFRESH(out-of-band-usd) after it |
| BandDecision.BandExampleHold | mmu_bot.mjs:379-392 | 9 bps on both sides in band [4.5, 9.2] holds |
| BandDecision.BandExampleDrift | mmu_bot.mjs:379-408 | a bid drifted past 10.5 bps refreshes out of band once the debounce has passed |
| BandDecision.BandExampleTooClose | mmu_bot.mjs:379-394 | a bid 0.5 bps from the mark refreshes as too close for any elapsed time |
| OrderBook.NormalizeSide | mmu_bot.mjs:131-136 | an order without any side field gets no side; a side field that lower-cases to exactly "bid" is a buy and one that lower-cases to exactly "ask" is a sell, whatever field it came from |
| OrderBook.Lower | mmu_bot.mjs:132 | lower-casing keeps the length |
| OrderBook.ContainsInfix | mmu_bot.mjs:133-134 | `includes` finds a string wherever it occurs |
| OrderBook.ContainsOccurs | mmu_bot.mjs:133-134 | `includes` is true only where the string occurs somewhere, so with `ContainsInfix` it means exactly "occurs as an infix" |
| OrderBook.NormalizeSideUnrecognised | mmu_bot.mjs:131-136 | a side field that lower-cased holds neither "buy" nor "sell" anywhere and is neither "bid" nor "ask" (say "long") gets no side, so it is counted on neither side |
| OrderBook.NormalizeSideBuyInfix | mmu_bot.mjs:131-136 | a side field containing "buy" anywhere, in any letter case, is a buy |
| OrderBook.NormalizeSideSellInfix | mmu_bot.mjs:131-136 | a side field containing "sell" anywhere, in any letter case, and no "buy", is a sell |
| OrderBook.Owned | mmu_bot.mjs:292 | the owned orders are no more than the orders (their membership is `OwnedMembers`) |
| OrderBook.OwnedMembers | mmu_bot.mjs:292 | an order is kept iff it is in the list and its cl_ord_id starts with `MMU-` |
| OrderBook.OwnedConcat | mmu_bot.mjs:292 | the filter of a concatenation is the concatenation of the filters, so order and duplicates are kept |
| OrderBook.OwnedAll | mmu_bot.mjs:292 | a list of owned orders passes the filter unchanged |
| OrderBook.CountSideUnits | mmu_bot.mjs:299-300 | no orders count 0; a single order counts 1 exactly on the side it normalises to |
| OrderBook.CountSideConcat | mmu_bot.mjs:299-300 | the count of a concatenation is the sum of the counts, so with `CountSideUnits` the count is the number of orders classified on the side |
| OrderBook.CountSide | mmu_bot.mjs:299-300 | a side count never exceeds the number of orders |
| OrderBook.Ids | mmu_bot.mjs:305 | no more ids than orders (their membership is `IdsMembers`) |
| OrderBook.IdsMembers | mmu_bot.mjs:305 | an id is listed iff some order carries it as a truthy (present, non-zero) id |
| OrderBook.IdsConcat | mmu_bot.mjs:305 | the id list of a concatenation is the concatenation of the id lists, so the cancel list keeps the book's order and duplicates |
| OrderBook.Reconcile | mmu_bot.mjs:289-333 | NoOwned iff no order is owned; otherwise the counts are the owned buy and sell counts; Shortfall iff a side is short of LADDER_LEVELS, cancelling exactly the truthy ids of owned orders; Intact iff both sides are complete |
| OrderBook.SideCountsBounded | mmu_bot.mjs:299-300 | every order is counted on at most one side |
| OrderBook.SideSpellings | mmu_bot.mjs:131-136 | "buy", "SELL", "bid" (order_side) and "ask" (direction) normalise to their sides; no side field gives no side |
| OrderBook.SideFieldPrecedence | mmu_bot.mjs:132 | side is read before order_side, order_side before direction: "sell" in side beats "bid" in direction, and "bid" in order_side beats "sell" in direction |
| OrderBook.ExampleOwned | mmu_bot.mjs:292 | only the three `MMU-` orders of a mixed book are kept |
| OrderBook.ExampleCounts | mmu_bot.mjs:299-305 | one buy, two sells, ids [11, 12, 13] |
| OrderBook.ShortfallExample | mmu_bot.mjs:289-333 | two levels expected, one buy present: shortfall cancelling all three owned ids |
| Lifecycle.ClOrdId | mmu_bot.mjs:475 | every generated cl_ord_id starts with `MMU-` |
| Lifecycle.ClOrdIdInjective | mmu_bot.mjs:475-493 | equal ids come from the same side, level and tsBase: no two orders of one refresh share an id, nor do orders of refreshes with different tsBase |
| Lifecycle.RunFrom | mmu_bot.mjs:465-481 | the loop from level i consumes at most i + 1 replies and appends at most i + 1 entries after those already there |
| Lifecycle.Run | mmu_bot.mjs:465-481 | a side consumes at most LADDER_LEVELS replies and makes at most LADDER_LEVELS entries |
| Lifecycle.RunFromEntries | mmu_bot.mjs:465-481 | entry j is the attempt at level i − (j − base) carrying the reply at k + (j − base): no level or reply is skipped |
| Lifecycle.RunFromCalls | mmu_bot.mjs:465-481 | the replies consumed are the entries plus the call that threw, which was a `Threw` reply |
| Lifecycle.RunFromStops | mmu_bot.mjs:465-481 | every entry but the last was accepted (code 0); a side that stopped early without an exception ended on a non-zero code |
| Lifecycle.RunEntry | mmu_bot.mjs:465-481 | entry j of a side is the attempt at level LADDER_LEVELS − 1 − j with reply k + j |
| Lifecycle.RunOutcome | mmu_bot.mjs:465-481 | a whole side: calls = entries (+1 if it threw), accepted entries before the last, a short side ends on a rejection |
| Lifecycle.PlaceSide | mmu_bot.mjs:465-481 | the count-down loop with push and break returns exactly the entries, reply index and exception flag of `Run` |
| Lifecycle.PlacedOrderRecognised | mmu_bot.mjs:292 | an order bearing a generated cl_ord_id and the side string the bot sends is owned and counted on that side |
| QuoteEngine.AfterCheck | mmu_bot.mjs:289-333 | a reconciliation sets the check time to now, keeps the refresh time, keeps the quote iff every side is complete and clears it otherwise |
| QuoteEngine.CheckOf | mmu_bot.mjs:289-292 | the reconciler's outcome is available iff the check is due and its query answered |
| QuoteEngine.RefreshStep | mmu_bot.mjs:447-502 | a refresh that does not complete both placement loops leaves the state unchanged; the check time is never touched; a completed one commits a bid strictly below its ask and the commit time |
| QuoteEngine.Step | mmu_bot.mjs:283-535 | a bad mark changes nothing; the check time stays or becomes now; the refresh time moves only in a cycle that completed the placement, and then to the commit time |
| QuoteEngine.Engine.constructor | mmu_bot.mjs:264-281 | start-up: the configuration from the environment, the quantity settings normalised from QTY (default 0.0001), QTY_MIN and QTY_MAX, no quote, both timestamps 0 |
| QuoteEngine.Engine.RunCycle | mmu_bot.mjs:283-535 | one cycle of the main loop produces exactly the report and new state of `Step` |
| QuoteEngine.Engine.Refresh | mmu_bot.mjs:412-502 | the refresh branch (ladder arrays, query, cancel, quantity, both placement loops, commit) produces exactly `RefreshStep` |
| CycleProperties.RefreshedCycle | mmu_bot.mjs:336-502 | a refreshing cycle had a good mark, its reason is the REFRESH reason of the band decision on the post-reconciliation state, and it ran the refresh from that state |
| CycleProperties.StepFollowsDecide | mmu_bot.mjs:283-409 | with a good mark, a reconciliation that did not fail and no stop on fill, the cycle holds iff the band decision holds, with its label, and otherwise refreshes with the decision's reason |
| CycleProperties.ReconcileTiming | mmu_bot.mjs:283-291 | a bad mark changes nothing; with a good mark the reconciler runs iff ORDER_CHECK_MS has elapsed, the check time moves to now exactly then, and the cycle fails there iff the due query threw, in which case only the check time changes and the quote and refresh time are kept |
| CycleProperties.StopOnShortfall | mmu_bot.mjs:303-330 | the bot stops iff a due reconciliation finds a side short and STOP_ON_FILL is on, and it clears the quote first |
| CycleProperties.MissingOrdersForgetQuote | mmu_bot.mjs:294-328 | no owned orders or a short side ⇒ stop or REFRESH(out-of-band), and no quote survives unless the cycle places a new one |
| CycleProperties.HoldKeepsQuote | mmu_bot.mjs:336-409 | a HOLD needs a quote and keeps it and the refresh time unchanged |
| CycleProperties.OnlyPlacementCommits | mmu_bot.mjs:283-535 | any cycle that does not complete both placement loops keeps the refresh time and either keeps or clears the quote, never sets a new one |
| CycleProperties.RefreshCommit | mmu_bot.mjs:500-502 | a completed refresh sets the quote to the level-0 prices and the refresh time to the commit reading, nothing else; the prices are on the grid and straddle the mark; any other refresh changes nothing |
| CycleProperties.CommitIsLevelZero | mmu_bot.mjs:444-502 | after a completed cycle the quote is the level-0 bid and ask of the fresh ladder, straddling the mark, with the commit time |
| CycleProperties.AnsweredRepliesCommit | mmu_bot.mjs:447-502 | if the query answers, the cancel answers or there are no owned ids to cancel, and no newOrder call throws, the refresh commits whatever the codes |
| CycleProperties.PlacedRuns | mmu_bot.mjs:447-498 | a completed refresh ran the bids from the first reply and the asks from the next unused one, neither throwing |
| CycleProperties.PlacedBids | mmu_bot.mjs:465-481 | the j-th bid is level LADDER_LEVELS − 1 − j at its ladder price with the j-th reply |
| CycleProperties.PlacedAsks | mmu_bot.mjs:483-498 | the j-th ask is level LADDER_LEVELS − 1 − j at its ladder price with the reply right after the bids' |
| CycleProperties.PlacedSidesStop | mmu_bot.mjs:465-498 | each side has between 1 and LADDER_LEVELS entries (the asks run even after the bids broke), all accepted but the last, and a short side ends on a rejection |
| CycleProperties.PlacedQuantity | mmu_bot.mjs:453-460 | the refresh quantity is `pickQtyEach`'s and respects min_order_qty when that is on the grid |
| CycleProperties.PlacedOrdersRecognised | mmu_bot.mjs:465-498 | every placed order carries the refresh quantity and a cl_ord_id the reconciler counts on its own side |
| FreshQuote.LevelZeroDistances | mmu_bot.mjs:416-444 | the level-0 bid and ask lie at least the level-0 offset and less than that offset plus one tick from the mark |
| FreshQuote.BpsOfDistance | mmu_bot.mjs:113-121 | a price distance in [offset, offset + tick) is, in basis points of the mark, in [offset bps, offset bps + tick·10000/mark) |
| FreshQuote.FreshUsdQuoteHolds | mmu_bot.mjs:343-356 | in USD mode a fresh quote at the same mark is HOLD(band-usd) when the band contains [offset, offset + tick] |
| FreshQuote.FreshBpsQuoteHolds | mmu_bot.mjs:379-391 | in BPS mode a fresh quote at the same mark is HOLD(band) when MIN_BPS ≤ offset and offset + one tick in bps ≤ MAX_BPS |
| FreshQuote.FreshUsdQuoteTooClose | mmu_bot.mjs:341-358 | in USD mode, if ABS_MIN_USD ≥ offset + one tick, a fresh quote at the same mark is REFRESH(too-close-usd) |
| FreshQuote.DefaultFloorChurns | mmu_bot.mjs:37 | with the default ABS_MIN_USD and a spread of 1 to 49 USD, every fresh quote is immediately too close, so the bot re-quotes every cycle |
| FreshQuote.RefreshThenHoldUsd | mmu_bot.mjs:283-502 | two cycles: a completed refresh followed by a cycle at the same mark with no check due holds the new quote unchanged (USD band containing offset and tick) |

## Left out

- HTTP and the exchange: `getSymbolInfo`, `getMarkPrice`, `queryOpenOrders`, `cancelOrders` and `newOrder` are not modelled; their results (or exceptions) are inputs of the cycle. The symbol's decimals and min_order_qty are the `SymbolInfo` value.
- Authentication and signing (`authToken`, `signBody`, `parseJwtPayload`, `loadEdKey`): foreign cryptography and file I/O.
- Environment parsing and `dotenv`: `Env` holds already-parsed numbers, `None` standing for an unset or empty variable; non-numeric text (`NaN`) and a fractional LADDER_LEVELS are not modelled.
- Logging, `toFixed` formatting of prices and quantities in the order bodies, the order bodies' constant fields (symbol, order type, time in force, reduce_only), and the `setTimeout` delays between cycles.
- `process.exit(2)` is the `Stopped` report; `process.exit(1)` on a fatal start-up error is outside the cycle.
- `Math.random`: the jitter draw is the parameter `u`; the lemmas hold for every `u`, not only for u in [-1, 1].
- Floating point: prices and quantities are exact `real`s, so IEEE-754 error in `x * 10 ** d` and in the basis-point arithmetic is not modelled.
- `Lower` and `LowerChar` lower-case ASCII letters only, not all of Unicode.
- Order ids are integers; a string id from the exchange is not modelled.
- The reconciliation cancel's own success or failure: the source logs and ignores it, so it changes nothing in the model.
- QuoteEngine.Engine.RunCycle: requires at least 2 · LADDER_LEVELS replies in its input, one for every newOrder call a cycle can make; the source has no such bound because it receives the replies one by one.
- `check_symbol.mjs`, `gen_clientkey.cjs` and `gen_edkey.mjs` are not part of this model (requests and printing, random key generation and encoding libraries).

=== FILE: band.dfy ===
/**
 * The hysteresis band decision (mmu_bot.mjs:335-409): given the previous
 * quote and the current mark, HOLD (the quote stays) or REFRESH (cancel and
 * re-quote), with the label the source logs.
 */
module BandDecision {
  import opened Wrappers
  import opened Settings

  datatype HoldReason = Band | MinInterval | BandUsd | MinIntervalUsd

  /** "out-of-band", "too-close", "too-close-usd", "out-of-band-usd"; a missing quote keeps "out-of-band". */
  datatype RefreshReason = OutOfBand | TooClose | TooCloseUsd | OutOfBandUsd

  datatype Decision = Hold(hold: HoldReason) | Refresh(reason: RefreshReason)

  /** Distance of a bid below the mark, in basis points of the mark (mmu_bot.mjs:113-116). */
  function BidBpsFromMark(mark: real, bidPrice: real): (bps: real)
    requires mark != 0.0
    ensures mark > 0.0 ==> (bps >= 0.0 <==> bidPrice <= mark)
    ensures mark - bps / 10000.0 * mark == bidPrice
  {
    (mark - bidPrice) / mark * 10000.0
  }

  /** Distance of an ask above the mark, in basis points of the mark (mmu_bot.mjs:118-121). */
  function AskBpsFromMark(mark: real, askPrice: real): (bps: real)
    requires mark != 0.0
    ensures mark > 0.0 ==> (bps >= 0.0 <==> askPrice >= mark)
    ensures mark + bps / 10000.0 * mark == askPrice
  {
    (askPrice - mark) / mark * 10000.0
  }

  /** Distance of a bid below the mark, in USD (mmu_bot.mjs:123-125). */
  function BidUsdFromMark(mark: real, bidPrice: real): (usd: real)
    ensures usd >= 0.0 <==> bidPrice <= mark
    ensures mark - usd == bidPrice
  {
    mark - bidPrice
  }

  /** Distance of an ask above the mark, in USD (mmu_bot.mjs:127-129). */
  function AskUsdFromMark(mark: real, askPrice: real): (usd: real)
    ensures usd >= 0.0 <==> askPrice >= mark
    ensures mark + usd == askPrice
  {
    askPrice - mark
  }

  /**
   * The relative difference of two prices in basis points of their
   * midpoint, 0 when the midpoint is 0 (mmu_bot.mjs:107-111; the engine
   * never calls it).
   */
  function BpsDiff(a: real, b: real): (d: real)
    ensures a + b > 0.0 ==> d >= 0.0
    ensures a + b != 0.0 ==> (d == 0.0 <==> a == b)
  {
    var mid := (a + b) / 2.0;
    if mid == 0.0 then 0.0
    else (if a >= b then a - b else b - a) / mid * 10000.0
  }

  /** The difference does not depend on the order of its arguments. */
  lemma BpsDiffSymmetric(a: real, b: real)
    ensures BpsDiff(a, b) == BpsDiff(b, a)
  {
  }

  /** The USD debounce ceiling is `ABS_MAX_USD || Infinity`: a zero ABS_MAX_USD removes it. */
  predicate BelowUsdCeiling(c: Config, dist: real)
  {
    c.absMaxUsd == 0.0 || dist < c.absMaxUsd
  }

  /**
   * The decision of one cycle. Without a previous quote the engine refreshes;
   * otherwise it holds while both sides lie inside the band, holds for the
   * debounce while the last refresh is recent and both sides are under the
   * ceiling and neither is too close, and refreshes otherwise.
   */
  function Decide(c: Config, mark: real, lastBid: Option<real>, lastAsk: Option<real>, elapsed: int): (d: Decision)
    requires mark > 0.0
    ensures lastBid.None? || lastAsk.None? ==> d == Refresh(OutOfBand)
    ensures d.Hold? ==> lastBid.Some? && lastAsk.Some? && !IsTooClose(c, mark, lastBid.value, lastAsk.value)
    ensures (d == Hold(Band) || d == Hold(BandUsd))
      <==> lastBid.Some? && lastAsk.Some? && InBand(c, mark, lastBid.value, lastAsk.value)
    ensures lastBid.Some? && lastAsk.Some? && IsTooClose(c, mark, lastBid.value, lastAsk.value)
      ==> d == Refresh(if UsdMode(c) then TooCloseUsd else TooClose)
    ensures d == Hold(MinInterval) || d == Hold(MinIntervalUsd) ==> elapsed < c.minRefreshMs
    ensures IsUsdLabel(d) <==> UsdMode(c) && lastBid.Some? && lastAsk.Some?
  {
    if lastBid.None? || lastAsk.None? then Refresh(OutOfBand)
    else if UsdMode(c) then
      var bidUsd := BidUsdFromMark(mark, lastBid.value);
      var askUsd := AskUsdFromMark(mark, lastAsk.value);
      var tooCloseUsd := bidUsd < c.absMinUsd || askUsd < c.absMinUsd;
      if !tooCloseUsd && bidUsd <= c.absMaxUsd && askUsd <= c.absMaxUsd then Hold(BandUsd)
      else if !tooCloseUsd && elapsed < c.minRefreshMs && BelowUsdCeiling(c, bidUsd) && BelowUsdCeiling(c, askUsd) then Hold(MinIntervalUsd)
      else if tooCloseUsd then Refresh(TooCloseUsd)
      else Refresh(OutOfBandUsd)
    else
      var bidBps := BidBpsFromMark(mark, lastBid.value);
      var askBps := AskBpsFromMark(mark, lastAsk.value);
      var tooClose := bidBps < c.minBps || askBps < c.minBps;
      if !tooClose && bidBps <= c.maxBps && askBps <= c.maxBps then Hold(Band)
      else if !tooClose && elapsed < c.minRefreshMs && bidBps < 10.0 && askBps < 10.0 then Hold(MinInterval)
      else if tooClose then Refresh(TooClose)
      else Refresh(OutOfBand)
  }

  /** The labels the source logs only in USD mode. */
  predicate IsUsdLabel(d: Decision)
  {
    d in {Hold(BandUsd), Hold(MinIntervalUsd), Refresh(TooCloseUsd), Refresh(OutOfBandUsd)}
  }

  /** The distance of the bid from the mark in the unit of the active mode. */
  function BidDistance(c: Config, mark: real, bid: real): real
    requires mark > 0.0
  {
    if UsdMode(c) then BidUsdFromMark(mark, bid) else BidBpsFromMark(mark, bid)
  }

  /** The distance of the ask from the mark in the unit of the active mode. */
  function AskDistance(c: Config, mark: real, ask: real): real
    requires mark > 0.0
  {
    if UsdMode(c) then AskUsdFromMark(mark, ask) else AskBpsFromMark(mark, ask)
  }

  function MinDistance(c: Config): real { if UsdMode(c) then c.absMinUsd else c.minBps }
  function MaxDistance(c: Config): real { if UsdMode(c) then c.absMaxUsd else c.maxBps }

  /** Either side is closer to the mark than the minimum distance. */
  predicate IsTooClose(c: Config, mark: real, bid: real, ask: real)
    requires mark > 0.0
  {
    BidDistance(c, mark, bid) < MinDistance(c) || AskDistance(c, mark, ask) < MinDistance(c)
  }

  /** Both sides lie within [minimum, maximum] distance of the mark. */
  predicate InBand(c: Config, mark: real, bid: real, ask: real)
    requires mark > 0.0
  {
    !IsTooClose(c, mark, bid, ask) && BidDistance(c, mark, bid) <= MaxDistance(c) && AskDistance(c, mark, ask) <= MaxDistance(c)
  }

  /**
   * A band hold does not depend on the time since the last refresh: with the
   * mark and the quote unchanged, the decision stays HOLD with the same label.
   */
  lemma BandHoldIgnoresElapsed(c: Config, mark: real, bid: real, ask: real, e1: int, e2: int)
    requires mark > 0.0
    requires Decide(c, mark, Some(bid), Some(ask), e1) in {Hold(Band), Hold(BandUsd)}
    ensures Decide(c, mark, Some(bid), Some(ask), e2) == Decide(c, mark, Some(bid), Some(ask), e1)
  {
  }

  /** Once MIN_REFRESH_MS has passed, the engine holds exactly when the quote is inside the band. */
  lemma DebounceExpires(c: Config, mark: real, bid: real, ask: real, elapsed: int)
    requires mark > 0.0 && elapsed >= c.minRefreshMs
    ensures Decide(c, mark, Some(bid), Some(ask), elapsed).Hold? <==> InBand(c, mark, bid, ask)
  {
  }

  /**
   * In USD mode with a non-zero ABS_MAX_USD the debounce can never hold: the
   * band check already held whenever both sides were within ABS_MAX_USD.
   */
  lemma UsdDebounceUnreachable(c: Config, mark: real, lastBid: Option<real>, lastAsk: Option<real>, elapsed: int)
    requires mark > 0.0 && UsdMode(c) && c.absMaxUsd != 0.0
    ensures Decide(c, mark, lastBid, lastAsk, elapsed) != Hold(MinIntervalUsd)
  {
  }

  /** In basis-point mode the literal ceiling of 10 bps makes the debounce unreachable once MAX_BPS >= 10. */
  lemma BpsDebounceUnreachable(c: Config, mark: real, lastBid: Option<real>, lastAsk: Option<real>, elapsed: int)
    requires mark > 0.0 && !UsdMode(c) && c.maxBps >= 10.0
    ensures Decide(c, mark, lastBid, lastAsk, elapsed) != Hold(MinInterval)
  {
  }

  /**
   * The basis-point debounce: with a quote, the engine holds for the
   * minimum interval exactly when the quote is neither too close nor inside
   * the band, the last refresh is more recent than MIN_REFRESH_MS, and both
   * sides are under the literal 10 bps ceiling.
   */
  lemma BpsDebounceHold(c: Config, mark: real, bid: real, ask: real, elapsed: int)
    requires mark > 0.0 && !UsdMode(c)
    ensures Decide(c, mark, Some(bid), Some(ask), elapsed) == Hold(MinInterval) <==>
      (!IsTooClose(c, mark, bid, ask) && !InBand(c, mark, bid, ask) && elapsed < c.minRefreshMs
       && BidBpsFromMark(mark, bid) < 10.0 && AskBpsFromMark(mark, ask) < 10.0)
  {
  }

  /**
   * The USD debounce: with a quote, the engine holds for the minimum
   * interval exactly when the quote is neither too close nor inside the
   * band, the last refresh is more recent than MIN_REFRESH_MS, and both sides
   * are under the ceiling `ABS_MAX_USD || Infinity`.
   */
  lemma UsdDebounceHold(c: Config, mark: real, bid: real, ask: real, elapsed: int)
    requires mark > 0.0 && UsdMode(c)
    ensures Decide(c, mark, Some(bid), Some(ask), elapsed) == Hold(MinIntervalUsd) <==>
      (!IsTooClose(c, mark, bid, ask) && !InBand(c, mark, bid, ask) && elapsed < c.minRefreshMs
       && BelowUsdCeiling(c, BidUsdFromMark(mark, bid)) && BelowUsdCeiling(c, AskUsdFromMark(mark, ask)))
  {
  }

  /** The engine refreshes with a too-close label exactly when there is a quote and it is too close. */
  lemma TooCloseLabel(c: Config, mark: real, lastBid: Option<real>, lastAsk: Option<real>, elapsed: int)
    requires mark > 0.0
    ensures var d := Decide(c, mark, lastBid, lastAsk, elapsed);
      d in {Refresh(TooClose), Refresh(TooCloseUsd)} <==>
      (lastBid.Some? && lastAsk.Some? && IsTooClose(c, mark, lastBid.value, lastAsk.value))
  {
  }

  /** With ABS_MAX_USD = 0 the USD ceiling is infinite and the debounce does hold a fresh, wide quote. */
  lemma UsdDebounceWithoutCeiling(c: Config)
    requires c.absSpreadUsd == 1000.0 && c.absMinUsd == 300.0 && c.absMaxUsd == 0.0 && c.minRefreshMs == 20000
    ensures Decide(c, 65000.0, Some(64000.0), Some(66000.0), 5000) == Hold(MinIntervalUsd)
    ensures Decide(c, 65000.0, Some(64000.0), Some(66000.0), 20000) == Refresh(OutOfBandUsd)
  {
  }

  /** Basis-point band [4.5, 9.2], quote 64941.5 / 65058.5: at mark 65000 both sides are 9 bps away and the engine holds. */
  lemma BandExampleHold(c: Config, elapsed: int)
    requires !UsdMode(c) && c.minBps == 4.5 && c.maxBps == 9.2
    ensures BidBpsFromMark(65000.0, 64941.5) == 9.0 == AskBpsFromMark(65000.0, 65058.5)
    ensures Decide(c, 65000.0, Some(64941.5), Some(65058.5), elapsed) == Hold(Band)
  {
  }

  /** The same quote at mark 65010: the bid is about 10.5 bps away, so once MIN_REFRESH_MS has passed the engine refreshes out of band. */
  lemma BandExampleDrift(c: Config, elapsed: int)
    requires !UsdMode(c) && c.minBps == 4.5 && c.maxBps == 9.2 && elapsed >= c.minRefreshMs
    ensures BidBpsFromMark(65010.0, 64941.5) > 10.5
    ensures Decide(c, 65010.0, Some(64941.5), Some(65058.5), elapsed) == Refresh(OutOfBand)
  {
  }

  /** The same quote at mark 64945: the bid is about 0.5 bps away and the engine refreshes as too close, whatever the elapsed time. */
  lemma BandExampleTooClose(c: Config, elapsed: int)
    requires !UsdMode(c) && c.minBps == 4.5 && c.maxBps == 9.2
    ensures BidBpsFromMark(64945.0, 64941.5) < 0.6
    ensures Decide(c, 64945.0, Some(64941.5), Some(65058.5), elapsed) == Refresh(TooClose)
  {
  }
}

=== FILE: cycle_props.dfy ===
/**
 * What one cycle of the quote engine guarantees, and what two cycles in a
 * row do: when the reconciler runs, when the bot stops, when a quote is
 * kept, replaced or forgotten, and what the placed orders look like.
 */
module CycleProperties {
  import opened Wrappers
  import opened TickRounding
  import opened Settings
  import opened QuantitySelector
  import opened LadderPricer
  import opened BandDecision
  import opened OrderBook
  import opened Lifecycle
  import opened QuoteEngine

  /** The price query answered with a usable mark (mmu_bot.mjs:149). */
  predicate GoodMark(inp: Inputs)
  {
    inp.mark.Some? && inp.mark.value > 0.0
  }

  /** A cycle whose refresh placed both sides without an exception. */
  predicate PlacedCycle(r: CycleReport)
  {
    r.Refreshed? && r.refresh.Placed?
  }

  /** A cycle that refreshes ran the refresh from the state the band decision saw. */
  lemma RefreshedCycle(cfg: Config, info: SymbolInfo, qs: QtySettings, st: QuoteState, inp: Inputs)
    requires cfg.ladderLevels >= 1 && EnoughReplies(cfg, inp)
    requires Step(cfg, info, qs, st, inp).0.Refreshed?
    ensures GoodMark(inp)
    ensures CycleDecision(cfg, st, inp) == Refresh(Step(cfg, info, qs, st, inp).0.reason)
    ensures var step := RefreshStep(cfg, info, qs, PostCheck(cfg, st, inp), inp.mark.value, inp);
      Step(cfg, info, qs, st, inp) == (Refreshed(CheckOf(cfg, st, inp), Step(cfg, info, qs, st, inp).0.reason, step.0), step.1)
  {
  }

  /** The band decision of a cycle: the mark against the quote and refresh time left by the reconciliation. */
  function CycleDecision(cfg: Config, st: QuoteState, inp: Inputs): Decision
    requires GoodMark(inp)
  {
    var st1 := PostCheck(cfg, st, inp);
    Decide(cfg, inp.mark.value, st1.lastBid, st1.lastAsk, inp.now - st1.lastRefreshTs)
  }

  /**
   * A cycle with a good mark, a reconciliation that did not fail, and no
   * stop on fill does what the band decision says: it holds with the
   * decision's label exactly when the decision is a HOLD, and otherwise
   * refreshes with the decision's reason.
   */
  lemma StepFollowsDecide(cfg: Config, info: SymbolInfo, qs: QtySettings, st: QuoteState, inp: Inputs)
    requires cfg.ladderLevels >= 1 && EnoughReplies(cfg, inp) && GoodMark(inp)
    requires !(CheckDue(cfg, st, inp.now) && inp.checkOrders.None?)
    requires !(CheckOf(cfg, st, inp).Checked? && CheckOf(cfg, st, inp).outcome.Shortfall? && cfg.stopOnFill)
    ensures var r := Step(cfg, info, qs, st, inp).0;
      var d := CycleDecision(cfg, st, inp);
      && (d.Hold? <==> r.Held?)
      && (d.Hold? ==> r == Held(CheckOf(cfg, st, inp), d.hold))
      && (d.Refresh? ==> r.Refreshed? && r.check == CheckOf(cfg, st, inp) && r.reason == d.reason)
  {
  }

  /**
   * A bad mark ends the cycle before anything else: nothing changes. With a
   * good mark the reconciler runs exactly when ORDER_CHECK_MS has elapsed
   * since the last check, and the check time moves to now exactly then,
   * whether the query then answers or throws; a query that throws ends the
   * cycle with the quote and the refresh time as they were.
   */
  lemma ReconcileTiming(cfg: Config, info: SymbolInfo, qs: QtySettings, st: QuoteState, inp: Inputs)
    requires cfg.ladderLevels >= 1 && EnoughReplies(cfg, inp)
    ensures var (r, st') := Step(cfg, info, qs, st, inp);
      && (!GoodMark(inp) ==> r == BadMark && st' == st)
      && (GoodMark(inp) ==>
            && st'.lastOrderCheckTs == (if CheckDue(cfg, st, inp.now) then inp.now else st.lastOrderCheckTs)
            && (r == CheckFailed <==> CheckDue(cfg, st, inp.now) && inp.checkOrders.None?)
            && (r == CheckFailed ==> st' == st.(lastOrderCheckTs := inp.now))
            && (r.Held? || r.Refreshed? ==> (r.check.Checked? <==> CheckDue(cfg, st, inp.now))))
  {
  }

  /**
   * The bot stops exactly when a due reconciliation finds a side short of
   * LADDER_LEVELS owned orders and STOP_ON_FILL is on; it forgets the quote
   * before it stops.
   */
  lemma StopOnShortfall(cfg: Config, info: SymbolInfo, qs: QtySettings, st: QuoteState, inp: Inputs)
    requires cfg.ladderLevels >= 1 && EnoughReplies(cfg, inp)
    ensures var (r, st') := Step(cfg, info, qs, st, inp);
      && (r.Stopped? <==>
            GoodMark(inp) && CheckDue(cfg, st, inp.now) && inp.checkOrders.Some?
            && Reconcile(inp.checkOrders.value, cfg.ladderLevels).Shortfall? && cfg.stopOnFill)
      && (r.Stopped? ==> st'.lastBid.None? && st'.lastAsk.None?)
  {
  }

  /**
   * A due reconciliation that finds no owned order, or a side short of its
   * levels, leaves no quote behind unless the same cycle places a new one.
   */
  lemma MissingOrdersForgetQuote(cfg: Config, info: SymbolInfo, qs: QtySettings, st: QuoteState, inp: Inputs)
    requires cfg.ladderLevels >= 1 && EnoughReplies(cfg, inp)
    requires GoodMark(inp) && CheckDue(cfg, st, inp.now) && inp.checkOrders.Some?
    requires !Reconcile(inp.checkOrders.value, cfg.ladderLevels).Intact?
    ensures var (r, st') := Step(cfg, info, qs, st, inp);
      && ((r.Refreshed? && r.reason == OutOfBand) || r.Stopped?)
      && (!PlacedCycle(r) ==> st'.lastBid.None? && st'.lastAsk.None?)
  {
  }

  /** A HOLD keeps the quote and the refresh time, and needs a quote to keep. */
  lemma HoldKeepsQuote(cfg: Config, info: SymbolInfo, qs: QtySettings, st: QuoteState, inp: Inputs)
    requires cfg.ladderLevels >= 1 && EnoughReplies(cfg, inp)
    ensures var (r, st') := Step(cfg, info, qs, st, inp);
      r.Held? ==>
        && st.lastBid.Some? && st.lastAsk.Some?
        && st'.lastBid == st.lastBid && st'.lastAsk == st.lastAsk
        && st'.lastRefreshTs == st.lastRefreshTs
  {
  }

  /**
   * Only a refresh that placed both sides without an exception sets a quote
   * or moves the refresh time: any other cycle keeps the old quote or
   * forgets it.
   */
  lemma OnlyPlacementCommits(cfg: Config, info: SymbolInfo, qs: QtySettings, st: QuoteState, inp: Inputs)
    requires cfg.ladderLevels >= 1 && EnoughReplies(cfg, inp)
    ensures var (r, st') := Step(cfg, info, qs, st, inp);
      !PlacedCycle(r) ==>
        && st'.lastRefreshTs == st.lastRefreshTs
        && (st'.lastBid.Some? ==> st'.lastBid == st.lastBid)
        && (st'.lastAsk.Some? ==> st'.lastAsk == st.lastAsk)
  {
  }

  /**
   * A refresh that placed both sides commits the level-0 prices of the
   * fresh ladder, whatever codes the exchange answered, and the refresh
   * time taken after the placements: the quote is on the price grid and
   * straddles the mark. Nothing else changes.
   */
  lemma RefreshCommit(cfg: Config, info: SymbolInfo, qs: QtySettings, st: QuoteState, mark: real, inp: Inputs)
    requires cfg.ladderLevels >= 1 && EnoughReplies(cfg, inp) && mark > 0.0
    ensures var (out, st') := RefreshStep(cfg, info, qs, st, mark, inp);
      && (out.Placed? ==>
            && st' == st.(lastBid := Some(LadderBids(cfg, mark, info.priceDecimals)[0]),
                          lastAsk := Some(LadderAsks(cfg, mark, info.priceDecimals)[0]),
                          lastRefreshTs := inp.commitTs)
            && st'.lastBid.value < mark < st'.lastAsk.value
            && OnGrid(st'.lastBid.value, info.priceDecimals) && OnGrid(st'.lastAsk.value, info.priceDecimals))
      && (!out.Placed? ==> st' == st)
  {
    BumpNeverFires(cfg, mark, info.priceDecimals, 0);
  }

  /**
   * The same at the level of the cycle: a cycle that placed both sides
   * leaves the level-0 prices as the quote and commitTs as the refresh time.
   */
  lemma CommitIsLevelZero(cfg: Config, info: SymbolInfo, qs: QtySettings, st: QuoteState, inp: Inputs)
    requires cfg.ladderLevels >= 1 && EnoughReplies(cfg, inp)
    requires PlacedCycle(Step(cfg, info, qs, st, inp).0)
    ensures GoodMark(inp)
    ensures var st' := Step(cfg, info, qs, st, inp).1;
      && st'.lastBid == Some(LadderBids(cfg, inp.mark.value, info.priceDecimals)[0])
      && st'.lastAsk == Some(LadderAsks(cfg, inp.mark.value, info.priceDecimals)[0])
      && st'.lastRefreshTs == inp.commitTs
      && st'.lastBid.value < inp.mark.value < st'.lastAsk.value
  {
    RefreshedCycle(cfg, info, qs, st, inp);
    RefreshCommit(cfg, info, qs, PostCheck(cfg, st, inp), inp.mark.value, inp);
  }

  /**
   * Rejections do not stop a commit: once the cycle refreshes, the query
   * answers and the cancel answers or is not needed (no owned ids), a cycle
   * in which no newOrder call throws places both sides and commits.
   */
  lemma AnsweredRepliesCommit(cfg: Config, info: SymbolInfo, qs: QtySettings, st: QuoteState, inp: Inputs)
    requires cfg.ladderLevels >= 1 && EnoughReplies(cfg, inp)
    requires Step(cfg, info, qs, st, inp).0.Refreshed?
    requires inp.refreshOrders.Some? && (inp.cancelOk || Ids(Owned(inp.refreshOrders.value)) == [])
    requires forall j :: 0 <= j < |inp.replies| ==> inp.replies[j].Answered?
    ensures PlacedCycle(Step(cfg, info, qs, st, inp).0)
  {
    var mark := inp.mark.value;
    var bids := LadderBids(cfg, mark, info.priceDecimals);
    var asks := LadderAsks(cfg, mark, info.priceDecimals);
    var q := PickQty(qs, info.minOrderQty, info.qtyDecimals, cfg.qtyJitterPct, inp.u);
    RunOutcome(Buy, bids, q, inp.replies, 0);
    var bidRun := Run(Buy, bids, q, inp.replies, 0);
    RunOutcome(Sell, asks, q, inp.replies, bidRun.next);
  }

  /** A refresh that placed both sides ran the bid side from the first reply and the ask side after it. */
  lemma PlacedRuns(cfg: Config, info: SymbolInfo, qs: QtySettings, st: QuoteState, mark: real, inp: Inputs)
    requires cfg.ladderLevels >= 1 && EnoughReplies(cfg, inp)
    requires RefreshStep(cfg, info, qs, st, mark, inp).0.Placed?
    ensures inp.refreshOrders.Some?
    ensures var q := PickQty(qs, info.minOrderQty, info.qtyDecimals, cfg.qtyJitterPct, inp.u);
      var bidRun := Run(Buy, LadderBids(cfg, mark, info.priceDecimals), q, inp.replies, 0);
      var askRun := Run(Sell, LadderAsks(cfg, mark, info.priceDecimals), q, inp.replies, bidRun.next);
      && !bidRun.threw && !askRun.threw
      && RefreshStep(cfg, info, qs, st, mark, inp).0 == Placed(Ids(Owned(inp.refreshOrders.value)), q, bidRun.results, askRun.results)
  {
  }

  /**
   * The bids a completed refresh placed: from the outermost level inward,
   * each at its ladder price, the j-th call of the cycle carrying the j-th
   * reply.
   */
  lemma PlacedBids(cfg: Config, info: SymbolInfo, qs: QtySettings, st: QuoteState, mark: real, inp: Inputs, j: nat)
    requires cfg.ladderLevels >= 1 && EnoughReplies(cfg, inp)
    requires RefreshStep(cfg, info, qs, st, mark, inp).0.Placed?
    requires j < |RefreshStep(cfg, info, qs, st, mark, inp).0.bidResults|
    ensures var out := RefreshStep(cfg, info, qs, st, mark, inp).0;
      && inp.replies[j].Answered?
      && out.bidResults[j] == Attempt(Buy, LadderBids(cfg, mark, info.priceDecimals), out.qtyEach, cfg.ladderLevels - 1 - j, inp.replies[j].code)
  {
    PlacedBidRun(cfg, info, qs, st, mark, inp);
    RunEntry(Buy, LadderBids(cfg, mark, info.priceDecimals), RefreshStep(cfg, info, qs, st, mark, inp).0.qtyEach, inp.replies, 0, j, cfg.ladderLevels);
  }

  /** The bid side of a completed refresh ran from the first reply. */
  lemma PlacedBidRun(cfg: Config, info: SymbolInfo, qs: QtySettings, st: QuoteState, mark: real, inp: Inputs)
    requires cfg.ladderLevels >= 1 && EnoughReplies(cfg, inp)
    requires RefreshStep(cfg, info, qs, st, mark, inp).0.Placed?
    ensures var out := RefreshStep(cfg, info, qs, st, mark, inp).0;
      out.bidResults == Run(Buy, LadderBids(cfg, mark, info.priceDecimals), out.qtyEach, inp.replies, 0).results
  {
    PlacedRuns(cfg, info, qs, st, mark, inp);
  }

  /**
   * The asks a completed refresh placed: after the bids, from the outermost
   * level inward, each at its ladder price, each call carrying the next
   * reply after those the bids consumed.
   */
  lemma PlacedAsks(cfg: Config, info: SymbolInfo, qs: QtySettings, st: QuoteState, mark: real, inp: Inputs, j: nat)
    requires cfg.ladderLevels >= 1 && EnoughReplies(cfg, inp)
    requires RefreshStep(cfg, info, qs, st, mark, inp).0.Placed?
    requires j < |RefreshStep(cfg, info, qs, st, mark, inp).0.askResults|
    ensures var out := RefreshStep(cfg, info, qs, st, mark, inp).0;
      var k := |out.bidResults| + j;
      && k < |inp.replies| && inp.replies[k].Answered?
      && out.askResults[j] == Attempt(Sell, LadderAsks(cfg, mark, info.priceDecimals), out.qtyEach, cfg.ladderLevels - 1 - j, inp.replies[k].code)
  {
    PlacedRuns(cfg, info, qs, st, mark, inp);
    var out := RefreshStep(cfg, info, qs, st, mark, inp).0;
    var bids, asks := LadderBids(cfg, mark, info.priceDecimals), LadderAsks(cfg, mark, info.priceDecimals);
    var bidRun := Run(Buy, bids, out.qtyEach, inp.replies, 0);
    assert out.bidResults == bidRun.results;
    assert out.askResults == Run(Sell, asks, out.qtyEach, inp.replies, bidRun.next).results;
    AskEntry(bids, asks, out.qtyEach, inp.replies, j, cfg.ladderLevels);
  }

  /** When the bids did not throw, ask entry j carries the reply right after the bids' entries. */
  lemma AskEntry(bids: seq<real>, asks: seq<real>, q: real, replies: seq<Reply>, j: nat, n: nat)
    requires |bids| == n && |asks| == n && 2 * n <= |replies|
    requires !Run(Buy, bids, q, replies, 0).threw
    requires j < |Run(Sell, asks, q, replies, Run(Buy, bids, q, replies, 0).next).results|
    ensures var bidRun := Run(Buy, bids, q, replies, 0);
      var k := |bidRun.results| + j;
      && k < |replies| && replies[k].Answered?
      && Run(Sell, asks, q, replies, bidRun.next).results[j] == Attempt(Sell, asks, q, n - 1 - j, replies[k].code)
  {
    var bidRun := Run(Buy, bids, q, replies, 0);
    RunOutcome(Buy, bids, q, replies, 0);
    assert bidRun.next == |bidRun.results|;
    RunEntry(Sell, asks, q, replies, |bidRun.results|, j, n);
  }

  /**
   * Each side of a completed refresh made at least one and at most
   * LADDER_LEVELS orders, the asks even when the bids stopped early;
   * every order but the last of a side was accepted, and a side cut short
   * ended on a rejection.
   */
  lemma PlacedSidesStop(cfg: Config, info: SymbolInfo, qs: QtySettings, st: QuoteState, mark: real, inp: Inputs)
    requires cfg.ladderLevels >= 1 && EnoughReplies(cfg, inp)
    requires RefreshStep(cfg, info, qs, st, mark, inp).0.Placed?
    ensures var out := RefreshStep(cfg, info, qs, st, mark, inp).0;
      var n := cfg.ladderLevels;
      && 1 <= |out.bidResults| <= n && 1 <= |out.askResults| <= n
      && (forall j :: 0 <= j < |out.bidResults| - 1 ==> out.bidResults[j].code == Some(0))
      && (forall j :: 0 <= j < |out.askResults| - 1 ==> out.askResults[j].code == Some(0))
      && (|out.bidResults| < n ==> |out.bidResults| > 0 && out.bidResults[|out.bidResults| - 1].code != Some(0))
      && (|out.askResults| < n ==> |out.askResults| > 0 && out.askResults[|out.askResults| - 1].code != Some(0))
  {
    PlacedRuns(cfg, info, qs, st, mark, inp);
    var q := PickQty(qs, info.minOrderQty, info.qtyDecimals, cfg.qtyJitterPct, inp.u);
    var bids := LadderBids(cfg, mark, info.priceDecimals);
    RunOutcome(Buy, bids, q, inp.replies, 0);
    var bidRun := Run(Buy, bids, q, inp.replies, 0);
    RunOutcome(Sell, LadderAsks(cfg, mark, info.priceDecimals), q, inp.replies, bidRun.next);
  }

  /**
   * The quantity of a completed refresh is pickQtyEach's draw, which
   * respects the exchange minimum when that lies on the quantity grid.
   */
  lemma PlacedQuantity(cfg: Config, info: SymbolInfo, qs: QtySettings, st: QuoteState, mark: real, inp: Inputs)
    requires cfg.ladderLevels >= 1 && EnoughReplies(cfg, inp)
    requires RefreshStep(cfg, info, qs, st, mark, inp).0.Placed?
    ensures var q := RefreshStep(cfg, info, qs, st, mark, inp).0.qtyEach;
      && q == PickQty(qs, info.minOrderQty, info.qtyDecimals, cfg.qtyJitterPct, inp.u)
      && (info.minOrderQty > 0.0 && OnGrid(info.minOrderQty, info.qtyDecimals) ==>
            q >= info.minOrderQty && OnGrid(q, info.qtyDecimals))
  {
    PlacedRuns(cfg, info, qs, st, mark, inp);
    var q := PickQty(qs, info.minOrderQty, info.qtyDecimals, cfg.qtyJitterPct, inp.u);
    assert RefreshStep(cfg, info, qs, st, mark, inp).0.qtyEach == q;
    if info.minOrderQty > 0.0 && OnGrid(info.minOrderQty, info.qtyDecimals) {
      PickQtyAtLeastMin(qs, info.minOrderQty, info.qtyDecimals, cfg.qtyJitterPct, inp.u);
    }
  }

  /**
   * An open order carrying the cl_ord_id of this entry's order body (for the
   * cycle's tsBase) and its side string is owned and counted on its side.
   */
  predicate Recognised(e: PlacementResult, tsBase: nat, id: Option<int>)
  {
    var o := OpenOrder(id, ClOrdId(e.side, e.level, tsBase), Some(SideString(e.side)), None, None);
    IsOwned(o) && NormalizeSide(o) == Some(e.side)
  }

  /**
   * Every order of a completed refresh is on its own side, carries the
   * refresh's quantity and an ownership-tagged cl_ord_id, so that the next
   * reconciliation counts it on that side, whatever id the exchange gives it.
   */
  lemma PlacedOrdersRecognised(cfg: Config, info: SymbolInfo, qs: QtySettings, st: QuoteState, mark: real, inp: Inputs, j: nat, id: Option<int>)
    requires cfg.ladderLevels >= 1 && EnoughReplies(cfg, inp)
    requires RefreshStep(cfg, info, qs, st, mark, inp).0.Placed?
    ensures var out := RefreshStep(cfg, info, qs, st, mark, inp).0;
      && (j < |out.bidResults| ==> var e := out.bidResults[j]; e.side == Buy && e.qty == out.qtyEach && Recognised(e, inp.tsBase, id))
      && (j < |out.askResults| ==> var e := out.askResults[j]; e.side == Sell && e.qty == out.qtyEach && Recognised(e, inp.tsBase, id))
  {
    var out := RefreshStep(cfg, info, qs, st, mark, inp).0;
    if j < |out.bidResults| {
      PlacedBids(cfg, info, qs, st, mark, inp, j);
      PlacedOrderRecognised(Buy, cfg.ladderLevels - 1 - j, inp.tsBase, id);
    }
    if j < |out.askResults| {
      PlacedAsks(cfg, info, qs, st, mark, inp, j);
      PlacedOrderRecognised(Sell, cfg.ladderLevels - 1 - j, inp.tsBase, id);
    }
  }
}

=== FILE: engine.dfy ===
/**
 * The quote-maintenance cycle of the bot (mmu_bot.mjs:278-535): read the
 * mark, reconcile the owned orders when due, decide HOLD or REFRESH against
 * the last quote, and on refresh rebuild the ladder, cancel the owned
 * orders, place both sides and commit the level-0 prices as the new quote.
 *
 * Everything the cycle learns from the outside world is an input: the mark
 * (absent when the price query threw), the clock readings, the two
 * open-order queries (absent when they threw), whether the refresh cancel
 * succeeded, the jitter draw and the replies to the newOrder calls in the
 * order they are made.
 */
module QuoteEngine {
  import opened Wrappers
  import opened TickRounding
  import opened Settings
  import opened QuantitySelector
  import opened LadderPricer
  import opened BandDecision
  import opened OrderBook
  import opened Lifecycle

  /** The four variables the loop carries from one cycle to the next (mmu_bot.mjs:278-281). */
  datatype QuoteState = QuoteState(lastBid: Option<real>, lastAsk: Option<real>, lastRefreshTs: int, lastOrderCheckTs: int)

  /** The symbol's tick and lot: price decimals, quantity decimals and min_order_qty. */
  datatype SymbolInfo = SymbolInfo(priceDecimals: nat, qtyDecimals: nat, minOrderQty: real)

  /** What one cycle receives from the exchange, the clock and the random source. */
  datatype Inputs = Inputs(
    mark: Option<real>,                      // None: the price query threw
    now: int,                                // Date.now() at the top of the cycle
    checkOrders: Option<seq<OpenOrder>>,     // the reconcile query; None: it threw
    refreshOrders: Option<seq<OpenOrder>>,   // the query before the cancel; None: it threw
    cancelOk: bool,                          // false: the refresh cancel threw
    u: real,                                 // the jitter draw in [-1, 1]
    tsBase: nat,                             // Date.now() used in the cl_ord_ids
    replies: seq<Reply>,                     // the newOrder replies, in call order
    commitTs: int)                           // Date.now() stored as lastRefreshTs

  /** Whether the reconciler ran this cycle, and what it found. */
  datatype Check = NotDue | Checked(outcome: ReconcileOutcome)

  /** How a refresh ended. */
  datatype RefreshOutcome =
    | QueryFailed                                          // the open-order query threw
    | CancelFailed(ids: seq<int>)                          // the cancel of the owned ids threw
    | PlaceFailed(bidResults: seq<PlacementResult>, askResults: seq<PlacementResult>)  // a newOrder call threw
    | Placed(cancelled: seq<int>, qtyEach: real, bidResults: seq<PlacementResult>, askResults: seq<PlacementResult>)

  /** What one cycle did. Every kind but `Placed` and `Held` ends in the error handler or the stop. */
  datatype CycleReport =
    | BadMark                                              // getMarkPrice threw
    | CheckFailed                                          // the reconcile query threw
    | Stopped(outcome: ReconcileOutcome)                   // process.exit(2) under STOP_ON_FILL
    | Held(check: Check, hold: HoldReason)
    | Refreshed(check: Check, reason: RefreshReason, refresh: RefreshOutcome)

  /** The replies suffice for every newOrder call of a cycle: at most LADDER_LEVELS per side. */
  predicate EnoughReplies(cfg: Config, inp: Inputs)
  {
    2 * cfg.ladderLevels <= |inp.replies|
  }

  /** Whether the periodic reconciliation is due (mmu_bot.mjs:289). */
  predicate CheckDue(cfg: Config, st: QuoteState, now: int)
  {
    now - st.lastOrderCheckTs >= cfg.orderCheckMs
  }

  /** The state after a reconciliation at time now: the quote is forgotten unless every side is complete. */
  function AfterCheck(st: QuoteState, now: int, outcome: ReconcileOutcome): (st': QuoteState)
    ensures st'.lastRefreshTs == st.lastRefreshTs && st'.lastOrderCheckTs == now
    ensures outcome.Intact? ==> st'.lastBid == st.lastBid && st'.lastAsk == st.lastAsk
    ensures !outcome.Intact? ==> st'.lastBid.None? && st'.lastAsk.None?
  {
    if outcome.Intact? then st.(lastOrderCheckTs := now)
    else st.(lastBid := None, lastAsk := None, lastOrderCheckTs := now)
  }

  /**
   * The refresh from the open-order query on (mmu_bot.mjs:447-502): cancel
   * the owned ids, pick the quantity, place the bids then the asks from the
   * outermost level inward, and commit the level-0 prices whatever codes
   * the exchange answered. An exception anywhere aborts without a commit.
   */
  function RefreshStep(cfg: Config, info: SymbolInfo, qs: QtySettings, st: QuoteState, mark: real, inp: Inputs): (r: (RefreshOutcome, QuoteState))
    requires cfg.ladderLevels >= 1 && EnoughReplies(cfg, inp)
    ensures !r.0.Placed? ==> r.1 == st
    ensures r.1.lastOrderCheckTs == st.lastOrderCheckTs
    ensures r.0.Placed? ==> r.1.lastRefreshTs == inp.commitTs
    ensures r.0.Placed? ==> r.1.lastBid.Some? && r.1.lastAsk.Some? && r.1.lastBid.value < r.1.lastAsk.value
  {
    var bids := LadderBids(cfg, mark, info.priceDecimals);
    var asks := LadderAsks(cfg, mark, info.priceDecimals);
    if inp.refreshOrders.None? then (QueryFailed, st)
    else
      var ids := Ids(Owned(inp.refreshOrders.value));
      if |ids| > 0 && !inp.cancelOk then (CancelFailed(ids), st)
      else
        var q := PickQty(qs, info.minOrderQty, info.qtyDecimals, cfg.qtyJitterPct, inp.u);
        var bidRun := Run(Buy, bids, q, inp.replies, 0);
        if bidRun.threw then (PlaceFailed(bidRun.results, []), st)
        else
          var askRun := Run(Sell, asks, q, inp.replies, bidRun.next);
          if askRun.threw then (PlaceFailed(bidRun.results, askRun.results), st)
          else
            (Placed(ids, q, bidRun.results, askRun.results),
             st.(lastBid := Some(bids[0]), lastAsk := Some(asks[0]), lastRefreshTs := inp.commitTs))
  }

  /** What the reconciler found this cycle, if it ran and its query answered. */
  function CheckOf(cfg: Config, st: QuoteState, inp: Inputs): (check: Check)
    ensures check.Checked? <==> CheckDue(cfg, st, inp.now) && inp.checkOrders.Some?
  {
    if CheckDue(cfg, st, inp.now) && inp.checkOrders.Some? then Checked(Reconcile(inp.checkOrders.value, cfg.ladderLevels))
    else NotDue
  }

  /** The state the band decision sees: the start state, or the state after the reconciliation. */
  function PostCheck(cfg: Config, st: QuoteState, inp: Inputs): QuoteState
  {
    match CheckOf(cfg, st, inp)
    case NotDue => st
    case Checked(outcome) => AfterCheck(st, inp.now, outcome)
  }

  /** One pass of the main loop (mmu_bot.mjs:283-535), as a function of the state it starts from. */
  function Step(cfg: Config, info: SymbolInfo, qs: QtySettings, st: QuoteState, inp: Inputs): (r: (CycleReport, QuoteState))
    requires cfg.ladderLevels >= 1 && EnoughReplies(cfg, inp)
    ensures r.0.BadMark? ==> r.1 == st
    ensures r.1.lastOrderCheckTs == st.lastOrderCheckTs || r.1.lastOrderCheckTs == inp.now
    ensures r.1.lastRefreshTs != st.lastRefreshTs ==> r.0.Refreshed? && r.0.refresh.Placed? && r.1.lastRefreshTs == inp.commitTs
  {
    if inp.mark.None? || inp.mark.value <= 0.0 then (BadMark, st)
    else if CheckDue(cfg, st, inp.now) && inp.checkOrders.None? then (CheckFailed, st.(lastOrderCheckTs := inp.now))
    else
      var mark := inp.mark.value;
      var check := CheckOf(cfg, st, inp);
      var st1 := PostCheck(cfg, st, inp);
      if check.Checked? && check.outcome.Shortfall? && cfg.stopOnFill then (Stopped(check.outcome), st1)
      else
        match Decide(cfg, mark, st1.lastBid, st1.lastAsk, inp.now - st1.lastRefreshTs)
        case Hold(h) => (Held(check, h), st1)
        case Refresh(reason) =>
          var (out, st2) := RefreshStep(cfg, info, qs, st1, mark, inp);
          (Refreshed(check, reason, out), st2)
  }

  /**
   * The bot's state between cycles, with the settings fixed at start-up:
   * the configuration, the symbol's grid and the normalised quantity settings.
   */
  class Engine {
    const cfg: Config
    const info: SymbolInfo
    const qty: QtySettings
    var lastBid: Option<real>
    var lastAsk: Option<real>
    var lastRefreshTs: int
    var lastOrderCheckTs: int

    function State(): QuoteState
      reads this
    {
      QuoteState(lastBid, lastAsk, lastRefreshTs, lastOrderCheckTs)
    }

    /**
     * Start-up (mmu_bot.mjs:14-42, 264-281): the configuration from the
     * environment, the quantity settings from QTY (default 0.0001), QTY_MIN
     * and QTY_MAX normalised to the symbol, no quote, both timestamps 0.
     */
    constructor (e: Env, info: SymbolInfo)
      ensures cfg == FromEnv(e) && this.info == info
      ensures qty == NormaliseQty(Or(e.qty, DefaultQty), e.qtyMin, e.qtyMax, info.minOrderQty, info.qtyDecimals)
      ensures State() == QuoteState(None, None, 0, 0)
    {
      cfg := FromEnv(e);
      this.info := info;
      qty := NormaliseQty(Or(e.qty, DefaultQty), e.qtyMin, e.qtyMax, info.minOrderQty, info.qtyDecimals);
      lastBid, lastAsk := None, None;
      lastRefreshTs, lastOrderCheckTs := 0, 0;
    }

    /** One cycle of the main loop; a `return` is the source's `continue`, its catch or its exit. */
    method RunCycle(inp: Inputs) returns (r: CycleReport)
      requires cfg.ladderLevels >= 1 && EnoughReplies(cfg, inp)
      modifies this
      ensures (r, State()) == Step(cfg, info, qty, old(State()), inp)
    {
      if inp.mark.None? || inp.mark.value <= 0.0 {
        return BadMark;
      }
      var mark := inp.mark.value;
      var now := inp.now;
      var check := NotDue;
      if now - lastOrderCheckTs >= cfg.orderCheckMs {
        lastOrderCheckTs := now;
        if inp.checkOrders.None? {
          return CheckFailed;
        }
        var outcome := Reconcile(inp.checkOrders.value, cfg.ladderLevels);
        check := Checked(outcome);
        if !outcome.Intact? {
          lastBid := None;
          lastAsk := None;
          if outcome.Shortfall? && cfg.stopOnFill {
            return Stopped(outcome);
          }
        }
      }

      var decision := Decide(cfg, mark, lastBid, lastAsk, now - lastRefreshTs);
      if decision.Hold? {
        return Held(check, decision.hold);
      }
      var out := Refresh(mark, inp);
      r := Refreshed(check, decision.reason, out);
    }

    /** The refresh branch of a cycle, from the ladder to the commit. */
    method Refresh(mark: real, inp: Inputs) returns (out: RefreshOutcome)
      requires cfg.ladderLevels >= 1 && EnoughReplies(cfg, inp)
      modifies this
      ensures (out, State()) == RefreshStep(cfg, info, qty, old(State()), mark, inp)
    {
      var bidPrices, askPrices := BuildLadder(cfg, mark, info.priceDecimals);
      var bid := bidPrices[0];
      var ask := askPrices[0];

      if inp.refreshOrders.None? {
        return QueryFailed;
      }
      var ids := Ids(Owned(inp.refreshOrders.value));
      if |ids| > 0 && !inp.cancelOk {
        return CancelFailed(ids);
      }
      var qtyEach := PickQty(qty, info.minOrderQty, info.qtyDecimals, cfg.qtyJitterPct, inp.u);

      var bidResults, next, threw := PlaceSide(Buy, bidPrices, qtyEach, inp.replies, 0);
      if threw {
        return PlaceFailed(bidResults, []);
      }
      var askResults, _, askThrew := PlaceSide(Sell, askPrices, qtyEach, inp.replies, next);
      if askThrew {
        return PlaceFailed(bidResults, askResults);
      }

      lastBid := Some(bid);
      lastAsk := Some(ask);
      lastRefreshTs := inp.commitTs;
      out := Placed(ids, qtyEach, bidResults, askResults);
    }
  }
}

=== FILE: fresh_quote.dfy ===
/**
 * How a freshly committed quote fares in the band decision at the same
 * mark: the level-0 prices sit between the target offset and one tick
 * beyond it, so the quote holds when the band contains that interval and
 * is refreshed again at once when the minimum distance lies beyond it.
 */
module FreshQuote {
  import opened Wrappers
  import opened TickRounding
  import opened Settings
  import opened QuantitySelector
  import opened LadderPricer
  import opened BandDecision
  import opened QuoteEngine
  import opened CycleProperties

  /**
   * The level-0 quote is at least the level-0 offset from the mark and less
   * than that offset plus one tick, on each side.
   */
  lemma LevelZeroDistances(c: Config, mark: real, priceDec: nat)
    requires mark > 0.0 && c.ladderLevels >= 1
    ensures var off := Offset(c, mark, 0);
      var bid := LadderBids(c, mark, priceDec)[0];
      var ask := LadderAsks(c, mark, priceDec)[0];
      && off <= mark - bid < off + Tick(priceDec)
      && off <= ask - mark < off + Tick(priceDec)
  {
    BumpNeverFires(c, mark, priceDec, 0);
  }

  /** A price distance d in [off, off + t) from the mark is, in basis points, in [b, b + t * 10000 / mark) where off is b basis points of the mark. */
  lemma BpsOfDistance(mark: real, b: real, off: real, t: real, dist: real)
    requires mark > 0.0 && off == mark * (b / 10000.0)
    requires off <= dist < off + t
    ensures b <= dist / mark * 10000.0 < b + t * 10000.0 / mark
  {
    var x := dist / mark * 10000.0;
    assert dist == x * mark / 10000.0;
    assert off + t == (b + t * 10000.0 / mark) * mark / 10000.0;
    MulLe(b, x, mark / 10000.0);
  }

  /**
   * In USD mode a fresh quote at an unchanged mark holds (HOLD(band-usd))
   * whenever ABS_MIN_USD is at most the level-0 offset and ABS_MAX_USD at
   * least that offset plus one tick, whatever time has passed.
   */
  lemma FreshUsdQuoteHolds(c: Config, mark: real, priceDec: nat, elapsed: int)
    requires UsdMode(c) && mark > 0.0 && c.ladderLevels >= 1
    requires c.absMinUsd <= Offset(c, mark, 0) && Offset(c, mark, 0) + Tick(priceDec) <= c.absMaxUsd
    ensures Decide(c, mark, Some(LadderBids(c, mark, priceDec)[0]), Some(LadderAsks(c, mark, priceDec)[0]), elapsed) == Hold(BandUsd)
  {
    LevelZeroDistances(c, mark, priceDec);
  }

  /**
   * In basis-point mode a fresh quote at an unchanged mark holds
   * (HOLD(band)) whenever MIN_BPS is at most the level-0 offset and MAX_BPS
   * at least that offset plus one tick expressed in basis points of the mark.
   */
  lemma FreshBpsQuoteHolds(c: Config, mark: real, priceDec: nat, elapsed: int)
    requires !UsdMode(c) && mark > 0.0 && c.ladderLevels >= 1
    requires c.minBps <= OffsetBps(c, 0) && OffsetBps(c, 0) + Tick(priceDec) * 10000.0 / mark <= c.maxBps
    ensures Decide(c, mark, Some(LadderBids(c, mark, priceDec)[0]), Some(LadderAsks(c, mark, priceDec)[0]), elapsed) == Hold(Band)
  {
    LevelZeroDistances(c, mark, priceDec);
    var bid := LadderBids(c, mark, priceDec)[0];
    var ask := LadderAsks(c, mark, priceDec)[0];
    LevelZeroBps(c, mark, priceDec, mark - bid);
    LevelZeroBps(c, mark, priceDec, ask - mark);
    assert InBand(c, mark, bid, ask);
  }

  /** A distance within one tick beyond the level-0 offset lies inside [MIN_BPS, MAX_BPS] under the band's premise. */
  lemma LevelZeroBps(c: Config, mark: real, priceDec: nat, dist: real)
    requires !UsdMode(c) && mark > 0.0
    requires c.minBps <= OffsetBps(c, 0) && OffsetBps(c, 0) + Tick(priceDec) * 10000.0 / mark <= c.maxBps
    requires Offset(c, mark, 0) <= dist < Offset(c, mark, 0) + Tick(priceDec)
    ensures c.minBps <= dist / mark * 10000.0 <= c.maxBps
  {
    BpsOfDistance(mark, OffsetBps(c, 0), Offset(c, mark, 0), Tick(priceDec), dist);
  }

  /**
   * In USD mode, when ABS_MIN_USD is at least the level-0 offset plus one
   * tick, a fresh quote is already too close at an unchanged mark: the
   * next cycle refreshes again with too-close-usd.
   */
  lemma FreshUsdQuoteTooClose(c: Config, mark: real, priceDec: nat, elapsed: int)
    requires UsdMode(c) && mark > 0.0 && c.ladderLevels >= 1
    requires Offset(c, mark, 0) + Tick(priceDec) <= c.absMinUsd
    ensures Decide(c, mark, Some(LadderBids(c, mark, priceDec)[0]), Some(LadderAsks(c, mark, priceDec)[0]), elapsed) == Refresh(TooCloseUsd)
  {
    LevelZeroDistances(c, mark, priceDec);
  }

  /**
   * With the default ABS_MIN_USD (at least 50 USD) and an ABS_SPREAD_USD
   * from 1 to 49, every fresh quote is too close at an unchanged mark, so
   * the engine re-quotes on every cycle.
   */
  lemma DefaultFloorChurns(e: Env, mark: real, priceDec: nat, elapsed: int)
    requires e.absMinUsd.None? && mark > 0.0
    requires 1.0 <= FromEnv(e).absSpreadUsd <= 49.0
    ensures var c := FromEnv(e);
      Decide(c, mark, Some(LadderBids(c, mark, priceDec)[0]), Some(LadderAsks(c, mark, priceDec)[0]), elapsed) == Refresh(TooCloseUsd)
  {
    var c := FromEnv(e);
    assert Offset(c, mark, 0) == c.absSpreadUsd;
    FreshUsdQuoteTooClose(c, mark, priceDec, elapsed);
  }

  /**
   * Two cycles in a row: a cycle that placed both sides, followed by one at
   * the same mark whose reconciliation is not due, holds the new quote when
   * the USD band contains the level-0 offset and the tick beyond it.
   */
  lemma RefreshThenHoldUsd(cfg: Config, info: SymbolInfo, qs: QtySettings, st: QuoteState, inp1: Inputs, inp2: Inputs)
    requires cfg.ladderLevels >= 1 && EnoughReplies(cfg, inp1) && EnoughReplies(cfg, inp2)
    requires PlacedCycle(Step(cfg, info, qs, st, inp1).0)
    requires inp2.mark == inp1.mark && !CheckDue(cfg, Step(cfg, info, qs, st, inp1).1, inp2.now)
    requires UsdMode(cfg) && cfg.absMinUsd <= OffsetUsd(cfg, 0) && OffsetUsd(cfg, 0) + Tick(info.priceDecimals) <= cfg.absMaxUsd
    ensures var st1 := Step(cfg, info, qs, st, inp1).1;
      Step(cfg, info, qs, st1, inp2) == (Held(NotDue, BandUsd), st1)
  {
    CommitIsLevelZero(cfg, info, qs, st, inp1);
    var mark := inp1.mark.value;
    var st1 := Step(cfg, info, qs, st, inp1).1;
    FreshUsdQuoteHolds(cfg, mark, info.priceDecimals, inp2.now - st1.lastRefreshTs);
  }
}

=== FILE: ladder.dfy ===
/**
 * The ladder pricer (mmu_bot.mjs:411-445): LADDER_LEVELS bid and ask prices
 * around the mark, in basis-point mode or in absolute USD mode, rounded
 * outward to the price grid, with a one-tick fix-up for a crossed level.
 */
module LadderPricer {
  import opened TickRounding
  import opened Settings

  /** Basis-point offset of level i: max(0.01, min(MAX_BPS, TARGET_BPS + i * LADDER_STEP_BPS)). */
  function OffsetBps(c: Config, i: nat): (bps: real)
    ensures 0.01 <= bps <= Max(0.01, c.maxBps)
    ensures 0.01 <= c.targetBps + i as real * c.ladderStepBps <= c.maxBps ==> bps == c.targetBps + i as real * c.ladderStepBps
  {
    Max(0.01, Min(c.maxBps, c.targetBps + i as real * c.ladderStepBps))
  }

  /** USD offset of level i: max(1, ABS_SPREAD_USD + 100 * i); the step of 100 USD is fixed. */
  function OffsetUsd(c: Config, i: nat): (usd: real)
    ensures usd >= 1.0
    ensures c.absSpreadUsd + i as real * 100.0 >= 1.0 ==> usd == c.absSpreadUsd + i as real * 100.0
  {
    Max(1.0, c.absSpreadUsd + i as real * 100.0)
  }

  /** The distance of level i from the mark, in price units. */
  function Offset(c: Config, mark: real, i: nat): (off: real)
    ensures mark > 0.0 ==> off > 0.0
  {
    if UsdMode(c) then OffsetUsd(c, i) else mark * (OffsetBps(c, i) / 10000.0)
  }

  /** The bid of level i: mark minus the offset, rounded down. */
  function RawBid(c: Config, mark: real, priceDec: nat, i: nat): real
  {
    RoundDown(mark - Offset(c, mark, i), priceDec)
  }

  /** The ask of level i before the fix-up: mark plus the offset, rounded up. */
  function RawAsk(c: Config, mark: real, priceDec: nat, i: nat): real
  {
    RoundUp(mark + Offset(c, mark, i), priceDec)
  }

  /** The ask of level i after the fix-up: one tick above the bid if it did not exceed it. */
  function LevelAsk(c: Config, mark: real, priceDec: nat, i: nat): (a: real)
    ensures a > RawBid(c, mark, priceDec, i)
    ensures a >= RawAsk(c, mark, priceDec, i)
  {
    var b := RawBid(c, mark, priceDec, i);
    var a := RawAsk(c, mark, priceDec, i);
    if a <= b then b + Tick(priceDec) else a
  }

  /** The bid prices, innermost level first. */
  function LadderBids(c: Config, mark: real, priceDec: nat): (bids: seq<real>)
    ensures |bids| == c.ladderLevels
    ensures forall i :: 0 <= i < |bids| ==> OnGrid(bids[i], priceDec)
  {
    seq(c.ladderLevels, i requires 0 <= i => RawBid(c, mark, priceDec, i))
  }

  /** The ask prices, innermost level first; every ask is strictly above the bid of its level. */
  function LadderAsks(c: Config, mark: real, priceDec: nat): (asks: seq<real>)
    ensures |asks| == c.ladderLevels
    ensures forall i :: 0 <= i < |asks| ==> asks[i] > LadderBids(c, mark, priceDec)[i]
  {
    seq(c.ladderLevels, i requires 0 <= i => LevelAsk(c, mark, priceDec, i))
  }

  /**
   * For a positive mark every offset is positive, so the bid lies below the
   * mark and the ask above it, and the fix-up never fires.
   */
  lemma BumpNeverFires(c: Config, mark: real, priceDec: nat, i: nat)
    requires mark > 0.0
    ensures RawBid(c, mark, priceDec, i) < mark < RawAsk(c, mark, priceDec, i)
    ensures LevelAsk(c, mark, priceDec, i) == RawAsk(c, mark, priceDec, i)
  {
  }

  /**
   * In basis-point mode with a non-negative step, offsets never shrink as the
   * level moves outward, never fall below 0.01 bps and never exceed MAX_BPS
   * (or 0.01 when MAX_BPS is below it).
   */
  lemma BpsOffsetsWiden(c: Config, i: nat, j: nat)
    requires c.ladderStepBps >= 0.0 && i <= j
    ensures OffsetBps(c, i) <= OffsetBps(c, j)
    ensures 0.01 <= OffsetBps(c, j) <= Max(0.01, c.maxBps)
  {
    assert i as real * c.ladderStepBps <= j as real * c.ladderStepBps by {
      MulLe(i as real, j as real, c.ladderStepBps + 1.0);
      assert (j as real - i as real) * c.ladderStepBps >= 0.0;
    }
  }

  /** In USD mode offsets are at least 1 and grow by 100 per level until then. */
  lemma UsdOffsetsWiden(c: Config, i: nat, j: nat)
    requires i <= j
    ensures 1.0 <= OffsetUsd(c, i) <= OffsetUsd(c, j)
  {
  }

  /** Offsets in price units never shrink outward (for a positive mark, and a non-negative step in basis-point mode). */
  lemma OffsetsWiden(c: Config, mark: real, i: nat, j: nat)
    requires mark > 0.0 && i <= j
    requires UsdMode(c) || c.ladderStepBps >= 0.0
    ensures Offset(c, mark, i) <= Offset(c, mark, j)
  {
    if UsdMode(c) {
      UsdOffsetsWiden(c, i, j);
    } else {
      BpsOffsetsWiden(c, i, j);
      ScaledOffsets(mark, OffsetBps(c, i) / 10000.0, OffsetBps(c, j) / 10000.0, Offset(c, mark, i), Offset(c, mark, j));
    }
  }

  /** Scaling two ordered fractions by the same positive mark keeps their order. */
  lemma ScaledOffsets(mark: real, a: real, b: real, offA: real, offB: real)
    requires mark > 0.0 && a <= b
    requires offA == mark * a && offB == mark * b
    ensures offA <= offB
  {
    MulLe(a, b, mark);
  }

  /**
   * Levels move monotonically away from the mark: bids are non-increasing and
   * asks non-decreasing from the innermost level outward.
   */
  lemma LadderWidens(c: Config, mark: real, priceDec: nat, i: nat, j: nat)
    requires mark > 0.0 && i <= j < c.ladderLevels
    requires UsdMode(c) || c.ladderStepBps >= 0.0
    ensures LadderBids(c, mark, priceDec)[j] <= LadderBids(c, mark, priceDec)[i]
    ensures LadderAsks(c, mark, priceDec)[i] <= LadderAsks(c, mark, priceDec)[j]
  {
    OffsetsWiden(c, mark, i, j);
    RoundMonotone(mark - Offset(c, mark, j), mark - Offset(c, mark, i), priceDec, Down);
    RoundMonotone(mark + Offset(c, mark, i), mark + Offset(c, mark, j), priceDec, Up);
    BumpNeverFires(c, mark, priceDec, i);
    BumpNeverFires(c, mark, priceDec, j);
  }

  /**
   * The source's ladder construction: fill both arrays level by level, then
   * patch any ask that does not exceed its bid to one tick above it.
   */
  method BuildLadder(c: Config, mark: real, priceDec: nat) returns (bidPrices: array<real>, askPrices: array<real>)
    ensures bidPrices[..] == LadderBids(c, mark, priceDec)
    ensures askPrices[..] == LadderAsks(c, mark, priceDec)
  {
    bidPrices, askPrices := FillLadder(c, mark, priceDec);
    FixCrossed(c, mark, priceDec, bidPrices, askPrices);
    assert bidPrices[..] == LadderBids(c, mark, priceDec);
  }

  /** The first loop: level i's bid and ask at the level-i offset, rounded outward. */
  method FillLadder(c: Config, mark: real, priceDec: nat) returns (bidPrices: array<real>, askPrices: array<real>)
    ensures fresh(bidPrices) && fresh(askPrices) && bidPrices != askPrices
    ensures bidPrices.Length == c.ladderLevels && askPrices.Length == c.ladderLevels
    ensures forall k :: 0 <= k < c.ladderLevels ==> bidPrices[k] == RawBid(c, mark, priceDec, k)
    ensures forall k :: 0 <= k < c.ladderLevels ==> askPrices[k] == RawAsk(c, mark, priceDec, k)
  {
    var levels := c.ladderLevels;
    bidPrices := new real[levels];
    askPrices := new real[levels];
    for i := 0 to levels
      invariant forall k :: 0 <= k < i ==> bidPrices[k] == RawBid(c, mark, priceDec, k)
      invariant forall k :: 0 <= k < i ==> askPrices[k] == RawAsk(c, mark, priceDec, k)
    {
      var off := Offset(c, mark, i);
      bidPrices[i] := RoundByDecimals(mark - off, priceDec, Down);
      askPrices[i] := RoundByDecimals(mark + off, priceDec, Up);
    }
  }

  /** The second loop: an ask at or below its bid moves to one tick above the bid. */
  method FixCrossed(c: Config, mark: real, priceDec: nat, bidPrices: array<real>, askPrices: array<real>)
    requires bidPrices != askPrices
    requires bidPrices.Length == c.ladderLevels && askPrices.Length == c.ladderLevels
    requires forall k :: 0 <= k < c.ladderLevels ==> bidPrices[k] == RawBid(c, mark, priceDec, k)
    requires forall k :: 0 <= k < c.ladderLevels ==> askPrices[k] == RawAsk(c, mark, priceDec, k)
    modifies askPrices
    ensures forall k :: 0 <= k < c.ladderLevels ==> askPrices[k] == LevelAsk(c, mark, priceDec, k)
  {
    for i := 0 to c.ladderLevels
      invariant forall k :: 0 <= k < i ==> askPrices[k] == LevelAsk(c, mark, priceDec, k)
      invariant forall k :: i <= k < c.ladderLevels ==> askPrices[k] == RawAsk(c, mark, priceDec, k)
    {
      if askPrices[i] <= bidPrices[i] {
        askPrices[i] := bidPrices[i] + 1.0 / Pow10(priceDec);
      }
    }
  }

  lemma ScaledTenfold(k: int, q: real, p: real)
    requires q >= 1.0 && p == 10.0 * q
    ensures (10 * k) as real / p == k as real / q
  {
    var x := k as real / q;
    assert x * q == k as real;
    assert x * p == (10 * k) as real;
  }

  /** A point on the grid of d decimals is on the grid of d + 1 decimals. */
  lemma TenfoldOnGrid(x: real, d: nat)
    requires OnGrid(x, d)
    ensures OnGrid(x, d + 1)
  {
    var k :| Grid(k, d) == x;
    ScaledTenfold(k, Pow10(d), Pow10(d + 1));
    assert Grid(10 * k, d + 1) == x;
  }

  /** Integer-valued reals lie on every grid. */
  lemma {:induction false} IntegralOnGrid(n: int, d: nat)
    ensures OnGrid(n as real, d)
  {
    if d == 0 {
      assert Grid(n, 0) == n as real;
    } else {
      IntegralOnGrid(n, d - 1);
      TenfoldOnGrid(n as real, d - 1);
    }
  }

  /** A point on a grid stays on every finer grid. */
  lemma {:induction false} OnGridFiner(x: real, d: nat, e: nat)
    requires OnGrid(x, d) && d <= e
    ensures OnGrid(x, e)
  {
    if d < e {
      OnGridFiner(x, d, e - 1);
      TenfoldOnGrid(x, e - 1);
    }
  }

  /** USD mode, spread 1000, mark 65000: levels 0 and 1 quote 64000/66000 and 63900/66100 on any price grid. */
  lemma UsdLadderExample(c: Config, priceDec: nat)
    requires c.absSpreadUsd == 1000.0 && c.ladderLevels == 2
    ensures LadderBids(c, 65000.0, priceDec) == [64000.0, 63900.0]
    ensures LadderAsks(c, 65000.0, priceDec) == [66000.0, 66100.0]
  {
    IntegralOnGrid(64000, priceDec);
    IntegralOnGrid(63900, priceDec);
    IntegralOnGrid(66000, priceDec);
    IntegralOnGrid(66100, priceDec);
    RoundOnGrid(64000.0, priceDec, Down);
    RoundOnGrid(63900.0, priceDec, Down);
    RoundOnGrid(66000.0, priceDec, Up);
    RoundOnGrid(66100.0, priceDec, Up);
    BumpNeverFires(c, 65000.0, priceDec, 0);
    BumpNeverFires(c, 65000.0, priceDec, 1);
  }

  /** Basis-point mode, TARGET_BPS 9, mark 65000: level 0 quotes 64941.5/65058.5 on any grid of at least one decimal. */
  lemma BpsLadderExample(c: Config, priceDec: nat)
    requires !UsdMode(c) && c.targetBps == 9.0 && c.maxBps >= 9.0 && c.ladderLevels >= 1
    requires priceDec >= 1
    ensures LadderBids(c, 65000.0, priceDec)[0] == 64941.5
    ensures LadderAsks(c, 65000.0, priceDec)[0] == 65058.5
  {
    assert Offset(c, 65000.0, 0) == 58.5;
    assert OnGrid(64941.5, 1) && OnGrid(65058.5, 1) by {
      assert Grid(649415, 1) == 64941.5;
      assert Grid(650585, 1) == 65058.5;
    }
    OnGridFiner(64941.5, 1, priceDec);
    OnGridFiner(65058.5, 1, priceDec);
    RoundOnGrid(64941.5, priceDec, Down);
    RoundOnGrid(65058.5, priceDec, Up);
    BumpNeverFires(c, 65000.0, priceDec, 0);
  }
}

=== FILE: lifecycle.dfy ===
/**
 * Order placement on refresh (mmu_bot.mjs:461-498): for each side, orders
 * are placed from the outermost level inward, stopping that side at the
 * first response whose code is not 0. Each newOrder call consumes the next
 * reply; a reply that is an exception aborts the whole cycle.
 */
module Lifecycle {
  import opened Wrappers
  import opened OrderBook

  /** What one newOrder call gave: the `code` of the response body (`None` when absent), or an exception. */
  datatype Reply = Answered(code: Option<int>) | Threw

  /**
   * One entry of `results` (side, level, price and the response code), with
   * the quantity of the order body; the body's cl_ord_id is
   * ClOrdId(side, level, tsBase).
   */
  datatype PlacementResult = PlacementResult(side: Side, level: nat, price: real, qty: real, code: Option<int>)

  /** The entries one side produced, the index of the next unused reply, and whether a call threw. */
  datatype SideRun = SideRun(results: seq<PlacementResult>, next: nat, threw: bool)

  predicate IsDigit(ch: char)
  {
    '0' <= ch <= '9'
  }

  function DigitChar(d: nat): (ch: char)
    requires d < 10
    ensures IsDigit(ch) && ch as int - '0' as int == d
  {
    ('0' as int + d) as char
  }

  /** Decimal text of a natural number, as JavaScript template strings print it. */
  function NatToString(n: nat): (s: string)
    ensures |s| >= 1 && (|s| == 1 <==> n < 10)
    ensures forall i :: 0 <= i < |s| ==> IsDigit(s[i])
  {
    if n < 10 then [DigitChar(n)] else NatToString(n / 10) + [DigitChar(n % 10)]
  }

  /** Different numbers print differently. */
  lemma {:induction false} NatToStringInjective(a: nat, b: nat)
    requires NatToString(a) == NatToString(b)
    ensures a == b
  {
    if a >= 10 && b >= 10 {
      var sa, sb := NatToString(a), NatToString(b);
      assert sa[..|sa| - 1] == NatToString(a / 10) && sa[|sa| - 1] == DigitChar(a % 10);
      assert sb[..|sb| - 1] == NatToString(b / 10) && sb[|sb| - 1] == DigitChar(b % 10);
      NatToStringInjective(a / 10, b / 10);
    } else if a < 10 && b < 10 {
      assert NatToString(a)[0] == DigitChar(a) && NatToString(b)[0] == DigitChar(b);
    }
  }

  /** Splitting at the first '-' after a run of digits recovers both parts. */
  lemma DashSplit(l1: string, t1: string, l2: string, t2: string)
    requires forall i :: 0 <= i < |l1| ==> IsDigit(l1[i])
    requires forall i :: 0 <= i < |l2| ==> IsDigit(l2[i])
    requires l1 + "-" + t1 == l2 + "-" + t2
    ensures l1 == l2 && t1 == t2
  {
    var s := l1 + "-" + t1;
    assert |l1| == |l2| by {
      assert s[|l1|] == '-' && s[|l2|] == '-';
    }
    assert l1 == s[..|l1|] && t1 == s[|l1| + 1..];
    assert l2 == s[..|l2|] && t2 == s[|l2| + 1..];
  }

  /** The side tag inside a cl_ord_id. */
  function SideTag(side: Side): string
  {
    if side == Buy then "BID" else "ASK"
  }

  /** The `side` field of the order body. */
  function SideString(side: Side): string
  {
    if side == Buy then "buy" else "sell"
  }

  /** `MMU-BID-L{level}-{tsBase}` or `MMU-ASK-L{level}-{tsBase}`: always carries the ownership tag. */
  function ClOrdId(side: Side, level: nat, tsBase: nat): (id: string)
    ensures StartsWith(id, OwnerTag)
  {
    var id := OwnerTag + SideTag(side) + "-L" + (NatToString(level) + "-" + NatToString(tsBase));
    assert id[..|OwnerTag|] == OwnerTag;
    id
  }

  /** The side tag sits at positions 4 to 6 of an id, and the level and tsBase after position 9. */
  lemma IdFields(tag: string, rest: string)
    requires |tag| == 3
    ensures (OwnerTag + tag + "-L" + rest)[4..7] == tag
    ensures (OwnerTag + tag + "-L" + rest)[9..] == rest
  {
  }

  /**
   * Ids are distinct per side, level and tsBase: within one refresh (one
   * tsBase) no two orders share a cl_ord_id, and orders of two refreshes
   * with different tsBase never do.
   */
  lemma ClOrdIdInjective(s1: Side, l1: nat, t1: nat, s2: Side, l2: nat, t2: nat)
    requires ClOrdId(s1, l1, t1) == ClOrdId(s2, l2, t2)
    ensures s1 == s2 && l1 == l2 && t1 == t2
  {
    var r1 := NatToString(l1) + "-" + NatToString(t1);
    var r2 := NatToString(l2) + "-" + NatToString(t2);
    IdFields(SideTag(s1), r1);
    IdFields(SideTag(s2), r2);
    assert SideTag(s1) == SideTag(s2) && r1 == r2;
    DashSplit(NatToString(l1), NatToString(t1), NatToString(l2), NatToString(t2));
    NatToStringInjective(l1, l2);
    NatToStringInjective(t1, t2);
  }

  /** The result entry of an answered attempt at one level. */
  function Attempt(side: Side, prices: seq<real>, qty: real, level: nat, code: Option<int>): PlacementResult
    requires level < |prices|
  {
    PlacementResult(side, level, prices[level], qty, code)
  }

  /**
   * The placement loop of one side from level i down to 0, with replies
   * consumed from index k and the entries so far in acc.
   */
  function RunFrom(side: Side, prices: seq<real>, qty: real, replies: seq<Reply>, i: int, k: nat, acc: seq<PlacementResult>): (o: SideRun)
    requires -1 <= i < |prices| && k + i + 1 <= |replies|
    ensures k <= o.next <= k + i + 1
    ensures |acc| <= |o.results| <= |acc| + i + 1 && o.results[..|acc|] == acc
    decreases i + 1
  {
    if i < 0 then SideRun(acc, k, false)
    else match replies[k]
      case Threw => SideRun(acc, k + 1, true)
      case Answered(code) =>
        var acc' := acc + [Attempt(side, prices, qty, i, code)];
        if code == Some(0) then
          var o := RunFrom(side, prices, qty, replies, i - 1, k + 1, acc');
          assert o.results[..|acc|] == o.results[..|acc'|][..|acc|];
          o
        else SideRun(acc', k + 1, false)
  }

  /** One side's whole placement loop, from the outermost level, with replies consumed from index k. */
  function Run(side: Side, prices: seq<real>, qty: real, replies: seq<Reply>, k: nat): (o: SideRun)
    requires k + |prices| <= |replies|
    ensures k <= o.next <= k + |prices|
    ensures |o.results| <= |prices|
  {
    RunFrom(side, prices, qty, replies, |prices| - 1, k, [])
  }

  /**
   * Entry j of a side whose first entry is at index `base` is the attempt at
   * level i - (j - base), carrying the reply at index k + (j - base).
   */
  predicate EntryAt(side: Side, prices: seq<real>, qty: real, replies: seq<Reply>, i: int, k: nat, base: nat, j: nat, e: PlacementResult)
  {
    var m := j - base;
    0 <= m <= i < |prices| && k + m < |replies| && replies[k + m].Answered?
    && e == Attempt(side, prices, qty, i - m, replies[k + m].code)
  }

  /**
   * The answered attempts of a side are the levels i, i-1, ... in order,
   * each carrying the reply it consumed: no level and no reply is skipped.
   */
  lemma {:induction false} RunFromEntries(side: Side, prices: seq<real>, qty: real, replies: seq<Reply>, i: int, k: nat, acc: seq<PlacementResult>, j: nat)
    requires -1 <= i < |prices| && k + i + 1 <= |replies|
    requires |acc| <= j < |RunFrom(side, prices, qty, replies, i, k, acc).results|
    ensures EntryAt(side, prices, qty, replies, i, k, |acc|, j, RunFrom(side, prices, qty, replies, i, k, acc).results[j])
    decreases i + 1
  {
    var acc' := acc + [Attempt(side, prices, qty, i, replies[k].code)];
    var o := RunFrom(side, prices, qty, replies, i, k, acc);
    if replies[k].code == Some(0) {
      assert o == RunFrom(side, prices, qty, replies, i - 1, k + 1, acc');
      if j == |acc| {
        assert o.results[j] == o.results[..|acc'|][j] == acc'[j];
      } else {
        RunFromEntries(side, prices, qty, replies, i - 1, k + 1, acc', j);
        assert k + 1 + (j - |acc'|) == k + (j - |acc|);
      }
    }
  }

  /** `next` counts exactly the calls made; a side that threw stopped at the reply that threw. */
  lemma {:induction false} RunFromCalls(side: Side, prices: seq<real>, qty: real, replies: seq<Reply>, i: int, k: nat, acc: seq<PlacementResult>)
    requires -1 <= i < |prices| && k + i + 1 <= |replies|
    ensures var o := RunFrom(side, prices, qty, replies, i, k, acc);
      && o.next == k + (|o.results| - |acc|) + (if o.threw then 1 else 0)
      && (o.threw ==> |o.results| - |acc| <= i && replies[k + (|o.results| - |acc|)] == Threw)
    decreases i + 1
  {
    if i >= 0 && replies[k].Answered? && replies[k].code == Some(0) {
      var acc' := acc + [Attempt(side, prices, qty, i, replies[k].code)];
      assert RunFrom(side, prices, qty, replies, i, k, acc) == RunFrom(side, prices, qty, replies, i - 1, k + 1, acc');
      RunFromCalls(side, prices, qty, replies, i - 1, k + 1, acc');
    }
  }

  /**
   * Every entry but the last of a side was accepted (code 0), and a side
   * that neither threw nor reached level 0 ends with a non-zero code.
   */
  lemma {:induction false} RunFromStops(side: Side, prices: seq<real>, qty: real, replies: seq<Reply>, i: int, k: nat, acc: seq<PlacementResult>)
    requires -1 <= i < |prices| && k + i + 1 <= |replies|
    ensures var o := RunFrom(side, prices, qty, replies, i, k, acc);
      && (!o.threw && |o.results| - |acc| < i + 1 ==> |o.results| > |acc| && o.results[|o.results| - 1].code != Some(0))
      && (forall j :: |acc| <= j < |o.results| - 1 ==> o.results[j].code == Some(0))
    decreases i + 1
  {
    if i >= 0 && replies[k].Answered? && replies[k].code == Some(0) {
      var acc' := acc + [Attempt(side, prices, qty, i, replies[k].code)];
      RunFromStops(side, prices, qty, replies, i - 1, k + 1, acc');
      var o := RunFrom(side, prices, qty, replies, i - 1, k + 1, acc');
      assert o == RunFrom(side, prices, qty, replies, i, k, acc);
      assert o.results[|acc|] == o.results[..|acc'|][|acc|] == acc'[|acc|];
      forall j | |acc| <= j < |o.results| - 1
        ensures o.results[j].code == Some(0)
      {
        if j > |acc| {
          assert |acc'| <= j < |o.results| - 1;
        }
      }
    }
  }

  /** Entry j of a whole side of n levels is the attempt at level n - 1 - j, carrying the reply at k + j. */
  lemma RunEntry(side: Side, prices: seq<real>, qty: real, replies: seq<Reply>, k: nat, j: nat, n: nat)
    requires n == |prices| && k + n <= |replies|
    requires j < |Run(side, prices, qty, replies, k).results|
    ensures replies[k + j].Answered?
    ensures Run(side, prices, qty, replies, k).results[j] == Attempt(side, prices, qty, n - 1 - j, replies[k + j].code)
  {
    RunFromEntries(side, prices, qty, replies, |prices| - 1, k, [], j);
  }

  /**
   * A whole side made one call per entry plus the one that threw; all its
   * entries but the last were accepted; and a side that stopped short
   * without an exception ended on a rejection.
   */
  lemma RunOutcome(side: Side, prices: seq<real>, qty: real, replies: seq<Reply>, k: nat)
    requires k + |prices| <= |replies|
    ensures var o := Run(side, prices, qty, replies, k);
      && o.next == k + |o.results| + (if o.threw then 1 else 0)
      && (o.threw ==> |o.results| < |prices| && replies[k + |o.results|] == Threw)
      && (forall j :: 0 <= j < |o.results| - 1 ==> o.results[j].code == Some(0))
      && (!o.threw && |o.results| < |prices| ==> |o.results| > 0 && o.results[|o.results| - 1].code != Some(0))
  {
    RunFromCalls(side, prices, qty, replies, |prices| - 1, k, []);
    RunFromStops(side, prices, qty, replies, |prices| - 1, k, []);
  }

  /**
   * The source's loop for one side: count down from the outermost level,
   * push each answered attempt, and break after a non-zero code.
   */
  method PlaceSide(side: Side, prices: array<real>, qty: real, replies: seq<Reply>, k0: nat)
    returns (results: seq<PlacementResult>, next: nat, threw: bool)
    requires k0 + prices.Length <= |replies|
    ensures SideRun(results, next, threw) == Run(side, prices[..], qty, replies, k0)
  {
    results, next, threw := [], k0, false;
    var i := prices.Length - 1;
    while i >= 0
      invariant -1 <= i < prices.Length
      invariant next + i + 1 <= |replies|
      invariant RunFrom(side, prices[..], qty, replies, i, next, results) == Run(side, prices[..], qty, replies, k0)
      decreases i + 1
    {
      var b := prices[i];
      var r := replies[next];
      next := next + 1;
      if r.Threw? {
        threw := true;
        break;
      }
      results := results + [PlacementResult(side, i, b, qty, r.code)];
      if r.code != Some(0) {
        break;
      }
      i := i - 1;
    }
  }

  /** An order the engine placed is recognised by the reconciler: owned, and counted on its own side. */
  lemma PlacedOrderRecognised(side: Side, level: nat, tsBase: nat, id: Option<int>)
    ensures var o := OpenOrder(id, ClOrdId(side, level, tsBase), Some(SideString(side)), None, None);
      IsOwned(o) && NormalizeSide(o) == Some(side)
  {
    var o := OpenOrder(id, ClOrdId(side, level, tsBase), Some(SideString(side)), None, None);
    assert SideField(o) == SideString(side);
    if side == Buy {
      assert Lower("buy") == "buy" == "" + "buy" + "";
      NormalizeSideBuyInfix(o, "", "");
    } else {
      assert Lower("sell") == "sell" == "" + "sell" + "";
      SpellingsApart();
      NormalizeSideSellInfix(o, "", "");
    }
  }
}

=== FILE: orders.dfy ===
/**
 * The exchange's open orders as the engine sees them, the ownership tag and
 * side classification, and the reconciliation outcome (mmu_bot.mjs:131-136,
 * 288-333).
 */
module OrderBook {
  import opened Wrappers

  datatype Side = Buy | Sell

  /**
   * One entry of query_open_orders: its exchange id (`None` when absent),
   * its cl_ord_id (absent reads as ""), and the three fields the side may be
   * reported in.
   */
  datatype OpenOrder = OpenOrder(
    id: Option<int>,
    clOrdId: string,
    side: Option<string>,
    orderSide: Option<string>,
    direction: Option<string>)

  /** The tag every client order id of this engine starts with. */
  const OwnerTag: string := "MMU-"

  predicate StartsWith(s: string, prefix: string)
  {
    |prefix| <= |s| && s[..|prefix|] == prefix
  }

  /** `s.includes(t)`. */
  predicate Contains(s: string, t: string)
  {
    StartsWith(s, t) || (|s| > 0 && Contains(s[1..], t))
  }

  /** ASCII lower-casing of one character. */
  function LowerChar(ch: char): char
  {
    if 'A' <= ch <= 'Z' then (ch as int + 32) as char else ch
  }

  function Lower(s: string): (r: string)
    ensures |r| == |s|
  {
    seq(|s|, i requires 0 <= i < |s| => LowerChar(s[i]))
  }

  /** `o.side ?? o.order_side ?? o.direction ?? ""`. */
  function SideField(o: OpenOrder): string
  {
    if o.side.Some? then o.side.value
    else if o.orderSide.Some? then o.orderSide.value
    else if o.direction.Some? then o.direction.value
    else ""
  }

  /** normalizeSide: "buy" anywhere or exactly "bid" is a buy; else "sell" anywhere or exactly "ask" is a sell. */
  function NormalizeSide(o: OpenOrder): (side: Option<Side>)
    ensures SideField(o) == "" ==> side.None?
    ensures Lower(SideField(o)) == "bid" ==> side == Some(Buy)
    ensures Lower(SideField(o)) == "ask" ==> side == Some(Sell)
  {
    SpellingsApart();
    var s := Lower(SideField(o));
    if Contains(s, "buy") || s == "bid" then Some(Buy)
    else if Contains(s, "sell") || s == "ask" then Some(Sell)
    else None
  }

  /** The ownership filter: cl_ord_id starts with "MMU-". */
  predicate IsOwned(o: OpenOrder)
  {
    StartsWith(o.clOrdId, OwnerTag)
  }

  /** `filter(Boolean)` on an id: present and non-zero. */
  predicate HasId(o: OpenOrder)
  {
    o.id.Some? && o.id.value != 0
  }

  /** The owned orders, in the exchange's order. */
  function Owned(os: seq<OpenOrder>): (mine: seq<OpenOrder>)
    ensures |mine| <= |os|
  {
    if os == [] then []
    else (if IsOwned(os[0]) then [os[0]] else []) + Owned(os[1..])
  }

  /** An order is kept by the filter iff it is in the list and owned. */
  lemma {:induction false} OwnedMembers(os: seq<OpenOrder>)
    ensures forall o :: o in Owned(os) <==> o in os && IsOwned(o)
  {
    if os != [] {
      OwnedMembers(os[1..]);
      assert forall o :: o in os <==> o == os[0] || o in os[1..];
    }
  }

  /** The filter keeps order and multiplicity: filtering a concatenation filters each part. */
  lemma {:induction false} OwnedConcat(a: seq<OpenOrder>, b: seq<OpenOrder>)
    ensures Owned(a + b) == Owned(a) + Owned(b)
  {
    if a == [] {
      assert a + b == b;
    } else {
      var ab := a + b;
      var head := if IsOwned(a[0]) then [a[0]] else [];
      assert ab[0] == a[0] && ab[1..] == a[1..] + b;
      assert Owned(ab) == head + Owned(a[1..] + b);
      OwnedConcat(a[1..], b);
      assert Owned(a) == head + Owned(a[1..]);
    }
  }

  /** A list of owned orders passes the filter unchanged, duplicates included. */
  lemma {:induction false} OwnedAll(os: seq<OpenOrder>)
    requires forall i :: 0 <= i < |os| ==> IsOwned(os[i])
    ensures Owned(os) == os
  {
    if os != [] {
      OwnedAll(os[1..]);
    }
  }

  /** The number of orders classified on the given side. */
  function CountSide(os: seq<OpenOrder>, side: Side): (n: nat)
    ensures n <= |os|
  {
    if os == [] then 0
    else (if NormalizeSide(os[0]) == Some(side) then 1 else 0) + CountSide(os[1..], side)
  }

  /** An empty list counts nothing; one order counts 1 exactly on the side it normalises to. */
  lemma CountSideUnits(o: OpenOrder, side: Side)
    ensures CountSide([], side) == 0
    ensures CountSide([o], side) == (if NormalizeSide(o) == Some(side) then 1 else 0)
  {
    assert [o][1..] == [];
  }

  /** Counting splits over concatenation: the count of a list is the sum of the counts of its parts. */
  lemma {:induction false} CountSideConcat(a: seq<OpenOrder>, b: seq<OpenOrder>, side: Side)
    ensures CountSide(a + b, side) == CountSide(a, side) + CountSide(b, side)
  {
    if a == [] {
      assert a + b == b;
    } else {
      assert (a + b)[0] == a[0] && (a + b)[1..] == a[1..] + b;
      CountSideConcat(a[1..], b, side);
    }
  }

  /** `map(o => o.id).filter(Boolean)`: the ids of the orders that have one, in order. */
  function Ids(os: seq<OpenOrder>): (ids: seq<int>)
    ensures |ids| <= |os|
  {
    if os == [] then []
    else (if HasId(os[0]) then [os[0].id.value] else []) + Ids(os[1..])
  }

  /** An id is listed iff some order of the list carries it as a present, non-zero id. */
  lemma {:induction false} IdsMembers(os: seq<OpenOrder>)
    ensures forall x :: x in Ids(os) <==> exists o :: o in os && HasId(o) && o.id.value == x
  {
    if os != [] {
      IdsMembers(os[1..]);
      assert forall o :: o in os <==> o == os[0] || o in os[1..];
    }
  }

  /** The id list keeps order and multiplicity: listing a concatenation lists each part. */
  lemma {:induction false} IdsConcat(a: seq<OpenOrder>, b: seq<OpenOrder>)
    ensures Ids(a + b) == Ids(a) + Ids(b)
  {
    if a == [] {
      assert a + b == b;
    } else {
      var ab := a + b;
      var head := if HasId(a[0]) then [a[0].id.value] else [];
      assert ab[0] == a[0] && ab[1..] == a[1..] + b;
      assert Ids(ab) == head + Ids(a[1..] + b);
      IdsConcat(a[1..], b);
      assert Ids(a) == head + Ids(a[1..]);
    }
  }

  /** The reconciler's three outcomes, with the counts it logs and the ids it cancels. */
  datatype ReconcileOutcome =
    | NoOwned
    | Shortfall(buyCount: nat, sellCount: nat, cancelIds: seq<int>)
    | Intact(buyCount: nat, sellCount: nat)

  /**
   * Reconciliation of the open orders against a ladder of `levels` orders
   * per side: no owned order at all, a side short of `levels` (cancel every
   * owned id), or every side complete.
   */
  function Reconcile(os: seq<OpenOrder>, levels: nat): (r: ReconcileOutcome)
    ensures r.NoOwned? <==> forall o :: o in os ==> !IsOwned(o)
    ensures r.Shortfall? ==> (r.buyCount < levels || r.sellCount < levels)
    ensures r.Intact? ==> r.buyCount >= levels && r.sellCount >= levels
    ensures !r.NoOwned? ==> r.buyCount == CountSide(Owned(os), Buy) && r.sellCount == CountSide(Owned(os), Sell)
    ensures r.Shortfall? ==> forall x :: x in r.cancelIds <==> exists o :: o in os && IsOwned(o) && HasId(o) && o.id.value == x
  {
    var mine := Owned(os);
    OwnedMembers(os);
    IdsMembers(mine);
    if |mine| == 0 then NoOwned
    else
      assert mine[0] in os && IsOwned(mine[0]);
      var buyCount := CountSide(mine, Buy);
      var sellCount := CountSide(mine, Sell);
      if buyCount < levels || sellCount < levels then Shortfall(buyCount, sellCount, Ids(mine))
      else Intact(buyCount, sellCount)
  }

  /** Every order is counted on at most one side, so the two counts never exceed the number of orders. */
  lemma {:induction false} SideCountsBounded(os: seq<OpenOrder>)
    ensures CountSide(os, Buy) + CountSide(os, Sell) <= |os|
  {
    if os != [] {
      SideCountsBounded(os[1..]);
    }
  }

  /** The side strings the engine submits, and their upper-case and bid/ask spellings, are classified as expected. */
  lemma SideSpellings(id: Option<int>, clOrdId: string)
    ensures NormalizeSide(OpenOrder(id, clOrdId, Some("buy"), None, None)) == Some(Buy)
    ensures NormalizeSide(OpenOrder(id, clOrdId, Some("SELL"), None, None)) == Some(Sell)
    ensures NormalizeSide(OpenOrder(id, clOrdId, None, Some("bid"), None)) == Some(Buy)
    ensures NormalizeSide(OpenOrder(id, clOrdId, None, None, Some("ask"))) == Some(Sell)
    ensures NormalizeSide(OpenOrder(id, clOrdId, None, None, None)) == None
  {
    assert Lower("buy") == "buy";
    assert Lower("SELL") == "sell";
    assert Lower("bid") == "bid";
    assert Lower("ask") == "ask";
    assert Lower("") == "";
    SpellingsApart();
  }

  /** `includes` finds t wherever it sits in the string. */
  lemma {:induction false} ContainsInfix(pre: string, t: string, post: string)
    ensures Contains(pre + t + post, t)
  {
    if pre == [] {
      assert pre + t + post == t + post;
      assert (t + post)[..|t|] == t;
    } else {
      ContainsInfix(pre[1..], t, post);
      assert (pre + t + post)[1..] == pre[1..] + t + post;
    }
  }

  /** `includes` is true only where t sits somewhere in the string: it returns what comes before and after. */
  lemma {:induction false} ContainsOccurs(s: string, t: string) returns (pre: string, post: string)
    requires Contains(s, t)
    ensures s == pre + t + post
  {
    if StartsWith(s, t) {
      pre, post := [], s[|t|..];
      assert s == s[..|t|] + s[|t|..];
    } else {
      var pre1, post1 := ContainsOccurs(s[1..], t);
      pre, post := [s[0]] + pre1, post1;
      assert s == [s[0]] + s[1..];
    }
  }

  /**
   * A side field that, lower-cased, holds neither "buy" nor "sell" anywhere
   * and is neither "bid" nor "ask" (say "long") is classified on no side, so
   * the reconciler counts it on neither.
   */
  lemma NormalizeSideUnrecognised(o: OpenOrder)
    requires forall pre, post :: Lower(SideField(o)) != pre + "buy" + post && Lower(SideField(o)) != pre + "sell" + post
    requires Lower(SideField(o)) != "bid" && Lower(SideField(o)) != "ask"
    ensures NormalizeSide(o).None?
  {
    var s := Lower(SideField(o));
    if Contains(s, "buy") {
      var pre, post := ContainsOccurs(s, "buy");
      assert false;
    }
    if Contains(s, "sell") {
      var pre, post := ContainsOccurs(s, "sell");
      assert false;
    }
  }

  /** A side field that contains "buy" anywhere, in any letter case, is a buy. */
  lemma NormalizeSideBuyInfix(o: OpenOrder, pre: string, post: string)
    requires Lower(SideField(o)) == pre + "buy" + post
    ensures NormalizeSide(o) == Some(Buy)
  {
    ContainsInfix(pre, "buy", post);
  }

  /** A side field that contains "sell" anywhere, in any letter case, and no "buy", is a sell. */
  lemma NormalizeSideSellInfix(o: OpenOrder, pre: string, post: string)
    requires Lower(SideField(o)) == pre + "sell" + post && !Contains(Lower(SideField(o)), "buy")
    ensures NormalizeSide(o) == Some(Sell)
  {
    ContainsInfix(pre, "sell", post);
    assert |Lower(SideField(o))| >= 4;
  }

  /**
   * The side fields are read in the order side, order_side, direction: the
   * first one present decides, even when a later one says the opposite.
   */
  lemma SideFieldPrecedence(id: Option<int>, clOrdId: string)
    ensures NormalizeSide(OpenOrder(id, clOrdId, Some("sell"), None, Some("bid"))) == Some(Sell)
    ensures NormalizeSide(OpenOrder(id, clOrdId, None, Some("bid"), Some("sell"))) == Some(Buy)
  {
    assert Lower("sell") == "sell" && Lower("bid") == "bid";
    SpellingsApart();
  }

  /** None of "sell", "bid" and "ask" contains "buy", and "ask" does not contain "sell". */
  lemma SpellingsApart()
    ensures !Contains("sell", "buy") && !Contains("bid", "buy")
    ensures !Contains("ask", "buy") && !Contains("ask", "sell")
  {
    assert !Contains("sell", "buy") by {
      assert "sell"[..3][0] != "buy"[0];
      assert "sell"[1..] == "ell" && "ell"[..3][0] != "buy"[0];
      assert "ell"[1..] == "ll" && "ll"[1..] == "l" && "l"[1..] == "";
    }
    assert !Contains("bid", "buy") by {
      assert "bid"[..3][1] != "buy"[1];
      assert "bid"[1..] == "id" && "id"[1..] == "d" && "d"[1..] == "";
    }
    assert !Contains("ask", "buy") && !Contains("ask", "sell") by {
      assert "ask"[1..] == "sk" && "sk"[1..] == "k" && "k"[1..] == "";
    }
  }

  function ExampleBook(): seq<OpenOrder>
  {
    [OpenOrder(Some(11), "MMU-BID-L1-7", Some("buy"), None, None),
     OpenOrder(Some(12), "MMU-ASK-L1-7", Some("sell"), None, None),
     OpenOrder(Some(13), "MMU-ASK-L0-7", Some("sell"), None, None),
     OpenOrder(Some(14), "manual", Some("buy"), None, None)]
  }

  lemma ExampleOwned()
    ensures Owned(ExampleBook()) == ExampleBook()[..3]
  {
    var os := ExampleBook();
    assert "manual"[..4][0] != OwnerTag[0];
    assert IsOwned(os[0]) && IsOwned(os[1]) && IsOwned(os[2]) && !IsOwned(os[3]);
    assert os[1..][1..][1..][1..] == [];
  }

  lemma ExampleCounts()
    ensures CountSide(ExampleBook()[..3], Buy) == 1 && CountSide(ExampleBook()[..3], Sell) == 2
    ensures Ids(ExampleBook()[..3]) == [11, 12, 13]
  {
    ExampleSides();
    var mine := ExampleBook()[..3];
    assert mine[1..][1..][1..] == [];
  }

  /** The owned orders of the example book are classified by their "buy" and "sell" side fields. */
  lemma ExampleSides()
    ensures NormalizeSide(ExampleBook()[0]) == Some(Buy)
    ensures NormalizeSide(ExampleBook()[1]) == Some(Sell) && NormalizeSide(ExampleBook()[2]) == Some(Sell)
  {
    var book := ExampleBook();
    assert SideField(book[0]) == "buy" && SideField(book[1]) == "sell" == SideField(book[2]);
    assert Lower("buy") == "buy" == "" + "buy" + "";
    assert Lower("sell") == "sell" == "" + "sell" + "";
    SpellingsApart();
    NormalizeSideBuyInfix(book[0], "", "");
    NormalizeSideSellInfix(book[1], "", "");
    NormalizeSideSellInfix(book[2], "", "");
  }

  /**
   * Ladder depth 2, one owned buy and two owned sells observed beside a
   * foreign order: the buy side is short, and every owned id is cancelled.
   */
  lemma ShortfallExample()
    ensures Reconcile(ExampleBook(), 2) == Shortfall(1, 2, [11, 12, 13])
  {
    ExampleOwned();
    ExampleCounts();
  }
}

=== FILE: quantity.dfy ===
/**
 * Per-order quantity: the start-up normalisation of QTY / QTY_MIN / QTY_MAX
 * (mmu_bot.mjs:264-276) and `pickQtyEach` (mmu_bot.mjs:86-105). The random
 * draw of `Math.random` is the parameter `u` (the source draws it from [-1, 1]).
 */
module QuantitySelector {
  import opened Wrappers
  import opened TickRounding
  import opened Settings

  /** The three quantity settings after start-up normalisation; `None` means "not set". */
  datatype QtySettings = QtySettings(qtyBase: real, qtyMin: Option<real>, qtyMax: Option<real>)

  /** Raise a user bound to the exchange minimum and round it down to the quantity grid. */
  function Floored(v: real, minQty: real, qtyDec: nat): (r: real)
    ensures OnGrid(r, qtyDec) && RoundDown(minQty, qtyDec) <= r <= Max(v, minQty)
  {
    RoundMonotone(minQty, Max(v, minQty), qtyDec, Down);
    RoundDown(Max(v, minQty), qtyDec)
  }

  /** The floored bound is the greatest grid point not above max(bound, min_order_qty). */
  lemma FlooredGreatest(v: real, minQty: real, qtyDec: nat, g: real)
    requires OnGrid(g, qtyDec) && g <= Max(v, minQty)
    ensures g <= Floored(v, minQty, qtyDec)
  {
    RoundDownGreatest(Max(v, minQty), qtyDec, g);
  }

  /**
   * Start-up normalisation: the base quantity and each user bound that is set
   * are raised to min_order_qty and rounded down to the grid; the bounds are
   * swapped when QTY_MAX ends up below QTY_MIN.
   */
  function NormaliseQty(qtyWant: real, qtyMinWant: Option<real>, qtyMaxWant: Option<real>, minQty: real, qtyDec: nat): (s: QtySettings)
    ensures s.qtyMin.Some? == qtyMinWant.Some? && s.qtyMax.Some? == qtyMaxWant.Some?
    ensures s.qtyBase == Floored(qtyWant, minQty, qtyDec)
    ensures qtyMinWant.Some? && qtyMaxWant.None? ==> s.qtyMin.value == Floored(qtyMinWant.value, minQty, qtyDec)
    ensures qtyMaxWant.Some? && qtyMinWant.None? ==> s.qtyMax.value == Floored(qtyMaxWant.value, minQty, qtyDec)
    ensures OnGrid(s.qtyBase, qtyDec) && s.qtyBase >= RoundDown(minQty, qtyDec)
    ensures s.qtyMin.Some? ==> OnGrid(s.qtyMin.value, qtyDec) && s.qtyMin.value >= RoundDown(minQty, qtyDec)
    ensures s.qtyMax.Some? ==> OnGrid(s.qtyMax.value, qtyDec) && s.qtyMax.value >= RoundDown(minQty, qtyDec)
    ensures s.qtyMin.Some? && s.qtyMax.Some? ==> s.qtyMin.value <= s.qtyMax.value
    ensures s.qtyMin.Some? && s.qtyMax.Some? ==>
      multiset{s.qtyMin.value, s.qtyMax.value}
        == multiset{Floored(qtyMinWant.value, minQty, qtyDec), Floored(qtyMaxWant.value, minQty, qtyDec)}
  {
    var base := Floored(qtyWant, minQty, qtyDec);
    var lo := if qtyMinWant.Some? then Some(Floored(qtyMinWant.value, minQty, qtyDec)) else None;
    var hi := if qtyMaxWant.Some? then Some(Floored(qtyMaxWant.value, minQty, qtyDec)) else None;
    if lo.Some? && hi.Some? && hi.value < lo.value then QtySettings(base, hi, lo)
    else QtySettings(base, lo, hi)
  }

  /** The quantity before the exchange floor and the rounding: jitter, then QTY_MIN, then QTY_MAX. */
  function Clamped(s: QtySettings, jitterPct: real, u: real): (q: real)
    ensures s.qtyMax.Some? ==> q <= s.qtyMax.value
    ensures s.qtyMin.Some? && (s.qtyMax.None? || s.qtyMin.value <= s.qtyMax.value) ==> q >= s.qtyMin.value
    ensures var j := if jitterPct > 0.0 then s.qtyBase * (1.0 + u * jitterPct) else s.qtyBase;
      && (s.qtyMin.None? && s.qtyMax.None? ==> q == j)
      && ((s.qtyMin.None? || s.qtyMin.value <= j) && (s.qtyMax.None? || j <= s.qtyMax.value) ==> q == j)
      && (s.qtyMin.Some? && j < s.qtyMin.value && (s.qtyMax.None? || s.qtyMin.value <= s.qtyMax.value) ==> q == s.qtyMin.value)
      && (s.qtyMax.Some? && s.qtyMax.value < j ==> q == s.qtyMax.value)
      && (s.qtyMin.Some? && s.qtyMax.Some? && s.qtyMax.value < s.qtyMin.value ==> q == s.qtyMax.value)
  {
    var q := if jitterPct > 0.0 then s.qtyBase * (1.0 + u * jitterPct) else s.qtyBase;
    var q := if s.qtyMin.Some? then Max(q, s.qtyMin.value) else q;
    if s.qtyMax.Some? then Min(q, s.qtyMax.value) else q
  }

  /**
   * pickQtyEach: the user clamps, then the exchange floor min_order_qty, then
   * rounding down to the grid; a result that is not positive falls back to
   * min_order_qty. Whatever else happens, the result is positive and on the
   * grid, or it is min_order_qty itself.
   */
  function PickQty(s: QtySettings, minQty: real, qtyDec: nat, jitterPct: real, u: real): (q: real)
    ensures q == minQty || (q > 0.0 && OnGrid(q, qtyDec))
    ensures q != minQty ==> q <= Max(Clamped(s, jitterPct, u), minQty)
  {
    var q := RoundDown(Max(Clamped(s, jitterPct, u), minQty), qtyDec);
    if q <= 0.0 then minQty else q
  }

  /**
   * Whenever some positive grid point g lies at or below the clamped
   * quantity raised to min_order_qty, there is no fallback: the quantity is
   * that value rounded down, the greatest grid point not above it, so at
   * least g.
   */
  lemma PickQtyGreatest(s: QtySettings, minQty: real, qtyDec: nat, jitterPct: real, u: real, g: real)
    requires OnGrid(g, qtyDec) && 0.0 < g <= Max(Clamped(s, jitterPct, u), minQty)
    ensures PickQty(s, minQty, qtyDec, jitterPct, u) == RoundDown(Max(Clamped(s, jitterPct, u), minQty), qtyDec)
    ensures g <= PickQty(s, minQty, qtyDec, jitterPct, u)
  {
    RoundDownGreatest(Max(Clamped(s, jitterPct, u), minQty), qtyDec, g);
  }

  /**
   * Without jitter and without bounds, a base quantity that is already on
   * the grid and at least min_order_qty is used as it is.
   */
  lemma PickQtyPlainBase(s: QtySettings, minQty: real, qtyDec: nat, jitterPct: real, u: real)
    requires s.qtyMin.None? && s.qtyMax.None? && jitterPct <= 0.0
    requires OnGrid(s.qtyBase, qtyDec) && s.qtyBase > 0.0 && s.qtyBase >= minQty
    ensures PickQty(s, minQty, qtyDec, jitterPct, u) == s.qtyBase
  {
    RoundOnGrid(s.qtyBase, qtyDec, Down);
  }

  /**
   * With a positive exchange minimum on the quantity grid, the exchange floor
   * always wins: the quantity is at least min_order_qty and on the grid,
   * whatever the jitter draw and the user bounds.
   */
  lemma PickQtyAtLeastMin(s: QtySettings, minQty: real, qtyDec: nat, jitterPct: real, u: real)
    requires minQty > 0.0 && OnGrid(minQty, qtyDec)
    ensures var q := PickQty(s, minQty, qtyDec, jitterPct, u);
      q >= minQty && OnGrid(q, qtyDec)
  {
    var m := Max(Clamped(s, jitterPct, u), minQty);
    RoundMonotone(minQty, m, qtyDec, Down);
    RoundOnGrid(minQty, qtyDec, Down);
  }

  /**
   * With normalised settings in which both bounds are set, and a positive
   * exchange minimum on the grid, every chosen quantity lies in
   * [QTY_MIN, QTY_MAX] and on the grid, whatever the jitter draw.
   */
  lemma PickQtyWithinBounds(qtyWant: real, loWant: real, hiWant: real, minQty: real, qtyDec: nat, jitterPct: real, u: real)
    requires minQty > 0.0 && OnGrid(minQty, qtyDec)
    ensures var s := NormaliseQty(qtyWant, Some(loWant), Some(hiWant), minQty, qtyDec);
      var q := PickQty(s, minQty, qtyDec, jitterPct, u);
      s.qtyMin.value <= q <= s.qtyMax.value && OnGrid(q, qtyDec)
  {
    var s := NormaliseQty(qtyWant, Some(loWant), Some(hiWant), minQty, qtyDec);
    var lo, hi := s.qtyMin.value, s.qtyMax.value;
    RoundOnGrid(minQty, qtyDec, Down);
    var c := Clamped(s, jitterPct, u);
    assert lo <= c <= hi;
    var m := Max(c, minQty);
    assert lo <= m <= hi;
    RoundMonotone(lo, m, qtyDec, Down);
    RoundOnGrid(lo, qtyDec, Down);
    PickQtyAtLeastMin(s, minQty, qtyDec, jitterPct, u);
  }
}

=== FILE: rounding.dfy ===
/**
 * Directional rounding to a number of decimal places (`roundByDecimals`,
 * mmu_bot.mjs:79-84). Prices and quantities are exact reals here; the
 * binary floating-point error of `x * 10 ** d` is not modelled.
 */
module TickRounding {

  /** "down" uses Math.floor (buy prices, quantities); "up" uses Math.ceil (sell prices). */
  datatype Direction = Down | Up

  /** 10^d as a real. */
  function Pow10(d: nat): (p: real)
    ensures p >= 1.0
  {
    if d == 0 then 1.0 else 10.0 * Pow10(d - 1)
  }

  /** One unit of the last decimal place: 10^-d. */
  function Tick(d: nat): (t: real)
    ensures 0.0 < t <= 1.0
    ensures t * Pow10(d) == 1.0
  {
    1.0 / Pow10(d)
  }

  /** Math.ceil on reals, through Math.floor of the negation. */
  function Ceil(v: real): (k: int)
    ensures k as real - 1.0 < v <= k as real
  {
    -((-v).Floor)
  }

  /** The grid point k * 10^-d. */
  function Grid(k: int, d: nat): real
  {
    k as real / Pow10(d)
  }

  /** x is an integer multiple of 10^-d. */
  ghost predicate OnGrid(x: real, d: nat)
  {
    exists k: int :: Grid(k, d) == x
  }

  lemma ScaleLe(a: real, b: real, p: real)
    requires p > 0.0 && a * p <= b * p
    ensures a <= b
  {
  }

  lemma ScaleLt(a: real, b: real, p: real)
    requires p > 0.0 && a * p < b * p
    ensures a < b
  {
  }

  lemma MulLe(a: real, b: real, p: real)
    requires p > 0.0 && a <= b
    ensures a * p <= b * p
  {
  }

  lemma MulLt(a: real, b: real, p: real)
    requires p > 0.0 && a < b
    ensures a * p < b * p
  {
  }

  /**
   * roundByDecimals(x, d, mode): the grid point at or below x ("down"), or at
   * or above x ("up"), less than one tick away from x.
   */
  function RoundByDecimals(x: real, d: nat, dir: Direction): (r: real)
    ensures OnGrid(r, d)
    ensures dir == Down ==> r <= x < r + Tick(d)
    ensures dir == Up ==> r - Tick(d) < x <= r
  {
    var v := x * Pow10(d);
    if dir == Down then
      var k := v.Floor;
      ScaledDown(x, Pow10(d), Tick(d), k);
      Grid(k, d)
    else
      var k := Ceil(v);
      ScaledUp(x, Pow10(d), Tick(d), k);
      Grid(k, d)
  }

  /** Down-rounding bounds at an abstract scale p with tick t = 1/p. */
  lemma ScaledDown(x: real, p: real, t: real, k: int)
    requires p >= 1.0 && t * p == 1.0
    requires k as real <= x * p < k as real + 1.0
    ensures k as real / p <= x < k as real / p + t
  {
    var r := k as real / p;
    assert r * p == k as real;
    assert (r + t) * p == r * p + t * p;
    ScaleLe(r, x, p);
    ScaleLt(x, r + t, p);
  }

  /** Up-rounding bounds at an abstract scale p with tick t = 1/p. */
  lemma ScaledUp(x: real, p: real, t: real, k: int)
    requires p >= 1.0 && t * p == 1.0
    requires k as real - 1.0 < x * p <= k as real
    ensures k as real / p - t < x <= k as real / p
  {
    var r := k as real / p;
    assert r * p == k as real;
    assert (r - t) * p == r * p - t * p;
    ScaleLe(x, r, p);
    ScaleLt(r - t, x, p);
  }

  function RoundDown(x: real, d: nat): real { RoundByDecimals(x, d, Down) }
  function RoundUp(x: real, d: nat): real { RoundByDecimals(x, d, Up) }

  lemma ScaledApart(g: real, h: real, p: real, t: real, kg: int, kh: int)
    requires p >= 1.0 && t * p == 1.0
    requires g == kg as real / p && h == kh as real / p
    requires g <= h < g + t
    ensures g == h
  {
    assert g * p == kg as real && h * p == kh as real;
    assert (g + t) * p == g * p + t * p;
    MulLe(g, h, p);
    MulLt(h, g + t, p);
    assert kg as real <= kh as real < kg as real + 1.0;
    assert kg == kh;
  }

  /** Two grid points less than one tick apart are equal. */
  lemma GridPointsApart(g: real, h: real, d: nat)
    requires OnGrid(g, d) && OnGrid(h, d)
    requires g <= h < g + Tick(d)
    ensures g == h
  {
    var kg :| Grid(kg, d) == g;
    var kh :| Grid(kh, d) == h;
    ScaledApart(g, h, Pow10(d), Tick(d), kg, kh);
  }

  /** Rounding down gives the greatest grid point not above x. */
  lemma RoundDownGreatest(x: real, d: nat, g: real)
    requires OnGrid(g, d) && g <= x
    ensures g <= RoundDown(x, d)
  {
    var r := RoundDown(x, d);
    if r < g {
      // r < g <= x < r + tick: two grid points within one tick
      GridPointsApart(r, g, d);
    }
  }

  /** Rounding up gives the least grid point not below x. */
  lemma RoundUpLeast(x: real, d: nat, g: real)
    requires OnGrid(g, d) && x <= g
    ensures RoundUp(x, d) <= g
  {
    var r := RoundUp(x, d);
    if g < r {
      GridPointsApart(g, r, d);
    }
  }

  /** Rounding in either direction never reverses the order of its inputs. */
  lemma {:induction false} RoundMonotone(x: real, y: real, d: nat, dir: Direction)
    requires x <= y
    ensures RoundByDecimals(x, d, dir) <= RoundByDecimals(y, d, dir)
  {
    if dir == Down {
      RoundDownGreatest(y, d, RoundDown(x, d));
    } else {
      RoundUpLeast(x, d, RoundUp(y, d));
    }
  }

  /** A value already on the grid is left unchanged by rounding in either direction. */
  lemma RoundOnGrid(x: real, d: nat, dir: Direction)
    requires OnGrid(x, d)
    ensures RoundByDecimals(x, d, dir) == x
  {
    var r := RoundByDecimals(x, d, dir);
    if dir == Down {
      RoundDownGreatest(x, d, x);
    } else {
      RoundUpLeast(x, d, x);
    }
  }
}

=== FILE: settings.dfy ===
/**
 * The engine's configuration, derived once at start-up from the environment
 * (mmu_bot.mjs:17-42). An environment variable that is unset or empty is
 * `None`, and the `||` default of the source applies.
 */
module Settings {
  import opened Wrappers

  /** The settings the quote engine reads (already parsed as numbers). */
  datatype Env = Env(
    qty: Option<real>,            // QTY
    qtyJitterPct: Option<real>,   // QTY_JITTER_PCT
    qtyMin: Option<real>,         // QTY_MIN
    qtyMax: Option<real>,         // QTY_MAX
    offsetBps: Option<real>,      // OFFSET_BPS
    targetBps: Option<real>,      // TARGET_BPS
    maxBps: Option<real>,         // MAX_BPS
    minBps: Option<real>,         // MIN_BPS
    minRefreshMs: Option<int>,    // MIN_REFRESH_MS
    ladderLevels: Option<int>,    // LADDER_LEVELS
    ladderStepBps: Option<real>,  // LADDER_STEP_BPS
    absSpreadUsd: Option<real>,   // ABS_SPREAD_USD
    absMinUsd: Option<real>,      // ABS_MIN_USD
    absMaxUsd: Option<real>,      // ABS_MAX_USD
    orderCheckMs: Option<int>,    // ORDER_CHECK_MS
    stopOnFill: Option<string>)   // STOP_ON_FILL

  datatype Config = Config(
    qtyJitterPct: real,
    targetBps: real,
    maxBps: real,
    minBps: real,
    minRefreshMs: int,
    ladderLevels: nat,
    ladderStepBps: real,
    absSpreadUsd: real,
    absMinUsd: real,
    absMaxUsd: real,
    orderCheckMs: int,
    stopOnFill: bool)

  /** The per-order quantity asked for when QTY is unset. */
  const DefaultQty: real := 0.0001

  /** Absolute (USD) mode is chosen whenever ABS_SPREAD_USD > 0; otherwise basis-point mode. */
  predicate UsdMode(c: Config)
  {
    c.absSpreadUsd > 0.0
  }

  function Or<T>(v: Option<T>, default: T): T
  {
    if v.Some? then v.value else default
  }

  function Max(a: real, b: real): real { if a >= b then a else b }
  function Min(a: real, b: real): real { if a <= b then a else b }

  /** Default ABS_MIN_USD: max(0.3 * spread, 50) in USD mode, otherwise 0. */
  function DefaultAbsMin(spread: real): real
  {
    if spread > 0.0 then Max(spread * 0.3, 50.0) else 0.0
  }

  /** Default ABS_MAX_USD: max(1.5 * spread, spread + 50) in USD mode, otherwise 0. */
  function DefaultAbsMax(spread: real): real
  {
    if spread > 0.0 then Max(spread * 1.5, spread + 50.0) else 0.0
  }

  /**
   * The configuration the source derives: TARGET_BPS falls back to OFFSET_BPS,
   * LADDER_LEVELS is at least 1, the USD band defaults follow ABS_SPREAD_USD,
   * and STOP_ON_FILL is on unless set to something other than "1".
   */
  function FromEnv(e: Env): (c: Config)
    ensures c.ladderLevels >= 1
    ensures e.ladderLevels.Some? && e.ladderLevels.value >= 1 ==> c.ladderLevels == e.ladderLevels.value
    ensures c.stopOnFill <==> (e.stopOnFill.None? || e.stopOnFill.value == "1")
    ensures e.targetBps.None? ==> c.targetBps == Or(e.offsetBps, 9.0)
    ensures e.absMinUsd.None? && UsdMode(c) ==> c.absMinUsd >= 50.0 && c.absMinUsd >= 0.3 * c.absSpreadUsd
    ensures e.absMaxUsd.None? && UsdMode(c) ==> c.absMaxUsd >= c.absSpreadUsd + 50.0
    ensures e.absMinUsd.None? && e.absMaxUsd.None? && !UsdMode(c) ==> c.absMinUsd == 0.0 == c.absMaxUsd
    // every variable that is set is taken as it is
    ensures e.qtyJitterPct.Some? ==> c.qtyJitterPct == e.qtyJitterPct.value
    ensures e.targetBps.Some? ==> c.targetBps == e.targetBps.value
    ensures e.maxBps.Some? ==> c.maxBps == e.maxBps.value
    ensures e.minBps.Some? ==> c.minBps == e.minBps.value
    ensures e.minRefreshMs.Some? ==> c.minRefreshMs == e.minRefreshMs.value
    ensures e.ladderStepBps.Some? ==> c.ladderStepBps == e.ladderStepBps.value
    ensures e.absSpreadUsd.Some? ==> c.absSpreadUsd == e.absSpreadUsd.value
    ensures e.absMinUsd.Some? ==> c.absMinUsd == e.absMinUsd.value
    ensures e.absMaxUsd.Some? ==> c.absMaxUsd == e.absMaxUsd.value
    ensures e.orderCheckMs.Some? ==> c.orderCheckMs == e.orderCheckMs.value
    // and every variable that is unset takes the source's default
    ensures e.qtyJitterPct.None? ==> c.qtyJitterPct == 0.0
    ensures e.maxBps.None? ==> c.maxBps == 9.2
    ensures e.minBps.None? ==> c.minBps == 4.5
    ensures e.minRefreshMs.None? ==> c.minRefreshMs == 20000
    ensures e.ladderLevels.None? || e.ladderLevels.value < 1 ==> c.ladderLevels == 1
    ensures e.ladderStepBps.None? ==> c.ladderStepBps == 0.25
    ensures e.absSpreadUsd.None? ==> c.absSpreadUsd == 0.0
    ensures e.absMinUsd.None? ==> c.absMinUsd == (if c.absSpreadUsd > 0.0 then Max(c.absSpreadUsd * 0.3, 50.0) else 0.0)
    ensures e.absMaxUsd.None? ==> c.absMaxUsd == (if c.absSpreadUsd > 0.0 then Max(c.absSpreadUsd * 1.5, c.absSpreadUsd + 50.0) else 0.0)
    ensures e.orderCheckMs.None? ==> c.orderCheckMs == 15000
  {
    var offset := Or(e.offsetBps, 9.0);
    var spread := Or(e.absSpreadUsd, 0.0);
    var levels := Or(e.ladderLevels, 1);
    Config(
      qtyJitterPct := Or(e.qtyJitterPct, 0.0),
      targetBps := Or(e.targetBps, offset),
      maxBps := Or(e.maxBps, 9.2),
      minBps := Or(e.minBps, 4.5),
      minRefreshMs := Or(e.minRefreshMs, 20000),
      ladderLevels := if levels >= 1 then levels else 1,
      ladderStepBps := Or(e.ladderStepBps, 0.25),
      absSpreadUsd := spread,
      absMinUsd := Or(e.absMinUsd, DefaultAbsMin(spread)),
      absMaxUsd := Or(e.absMaxUsd, DefaultAbsMax(spread)),
      orderCheckMs := Or(e.orderCheckMs, 15000),
      stopOnFill := Or(e.stopOnFill, "1") == "1")
  }

  /** With nothing set, the engine quotes one level per side in basis-point mode with band [4.5, 9.2] around 9 bps. */
  lemma DefaultConfig()
    ensures var c := FromEnv(Env(None, None, None, None, None, None, None, None, None, None, None, None, None, None, None, None));
      && !UsdMode(c) && c.ladderLevels == 1 && c.targetBps == 9.0
      && c.minBps == 4.5 && c.maxBps == 9.2 && c.ladderStepBps == 0.25
      && c.minRefreshMs == 20000 && c.orderCheckMs == 15000 && c.stopOnFill
  {
  }
}

=== FILE: wrappers.dfy ===
/** Optional values: a JavaScript `null`, `undefined` or unset setting is `None`. */
module Wrappers {
  datatype Option<+T> = None | Some(value: T)
}
